=== FILE: README.md ===
# YtDownloader core, modelled in Dafny

YtDownloader is a small web application around the `yt-dlp` media
extractor. A browser page asks a metadata endpoint (`/api/info`) for the
formats of a video URL. It picks one stream per video height and then calls a
download endpoint (`/api/download`). That endpoint runs the extractor with an
output template unique to the run, finds the file the extractor wrote, and
serves it as an attachment. Library code in `src/lib` does four things:

- It chooses a provider for a URL.
- It fetches metadata. For `hianime` hosts that fetch runs the extractor
  through the Python interpreter with a plugin directory. The download
  endpoint does not use this path: it launches the extractor directly for
  every URL.
- It normalises the extractor's JSON into a `VideoInfo` record with one
  subtitle track per language.
- It rewrites extractor errors into user-facing messages.

The provider choice (`resolveProvider`), the normaliser (`mapInfoToVideoInfo`)
and the error rewriter (`normalizeYtDlpError`) are exported library functions
that neither endpoint nor the page calls. They are modelled as library code.

This project models that logic and proves what it guarantees. There is one
Dafny module per source file:

| file | module | models |
|---|---|---|
| `common.dfy` | `Common` | `Option`/`Result`, thrown values, `error.message \|\| fallback`, `includes`/`startsWith`, `String(n)`, ordinal string order |
| `extractor.dfy` | `Extractor` | the extractor's JSON record (`format_id`, `filesize`, captions, ...) |
| `providers.dfy` | `Providers` | `src/lib/providers.ts` |
| `errors.dfy` | `Errors` | `src/lib/errors.ts` |
| `youtube.dfy` | `YouTube` | `src/lib/youtube.ts` |
| `download_route.dfy` | `DownloadRoute` | `src/app/api/download/route.ts` |
| `info_route.dfy` | `InfoRoute` | `src/app/api/info/route.ts` |
| `page.dfy` | `Page` | the non-UI logic of `src/app/page.tsx` |
| `end_to_end.dfy` | `EndToEnd` | how the page's query and the endpoint's header fit together |

The modelling follows the shape of the code:

- `collectSubtitleTracks` fills a `Map` that two calls share. It is the class
  `Providers.SubtitleTable`, which has a `tracks` map and the key insertion
  order. Its `Collect` method loops over the caption table and is proved
  equal to the left fold `CollectSpec`.
- `processFormats` updates a local `Map` in a loop. It is the method
  `Page.ProcessFormats`, proved against the declarative rule `Page.Choice`:
  "the first MP4 stream of that height, else the first stream of that height".
- The flag object of a download is built field by field. It is the method
  `DownloadRoute.BuildFlags`, proved equal to the record `ExpectedFlags`.
- The output-file locator is the method `DownloadRoute.LocateOutput`, proved
  equal to the rule `Locate`.
- `resolveProvider` loops over the provider list with an early return. It is
  the method `Providers.ResolveProvider`, proved against the regular
  expression written as a predicate.
- Pure mappers (`normalizeFormats`, `normalizeYtDlpError`, `parseFilename`,
  `buildParams`, ...) are functions.

The subprocess, the directory listing, the run id, the JSON parser and the
outcome of each external call are parameters of the operations that use them.

What the code does and does not do:

- The download endpoint reads only `url`, `type` and `itag`. It ignores
  `subtitleMode`, `subtitleLang` and `artifact`, although the page sends them.
  No subtitle download exists.
- The only 400 case is a missing `url` or `type`.
- The locator tries exactly one expected name, `ytdl-<id>.mp3` or `.mp4`. It
  then takes the first listed name with the run prefix. It has no
  extension-priority list.
- `Content-Type` depends only on the requested type (`audio/mpeg` or
  `video/mp4`), not on the extension found. `MkvServedAsMp4` shows a `.mkv`
  file announced as `video/mp4`.
- The download endpoint calls the extractor directly, never through
  `runYtDlp`, so a `hianime` download gets no plugin directory.
- The metadata endpoint does not call `mapInfoToVideoInfo`. It maps formats
  itself, keeping `format_id`, `filesize` and `url` verbatim and applying
  no defaults other than `[]` for an absent `formats`, and its answer has no `provider` and no `subtitles`.
- No code cleans up other temporary files of a run.

Two host tests disagree with each other. The launcher's four-substring test
`isHianime` is strictly narrower than the resolver's pattern:
`ProviderDoesNotImplyIsHianime` exhibits `hianime.bz`.

## Model

| member | source | states |
|---|---|---|
| Common.MessageOr | src/app/api/download/route.ts:129 | `error.message \|\| fallback`: the message when present and non-empty, for an `Error` or any other thrown value; the fallback when the message is empty or absent |
| Common.FirstWithPrefix | src/app/api/download/route.ts:101 | `find(startsWith)`: the index found has the prefix and no earlier entry has it; absent exactly when no entry has it |
| Common.NatToDecimal | src/lib/providers.ts:63 | `String(n)` of a natural number: non-empty, digits only, no leading zero unless the number is 0 |
| Common.NatToDecimalValue | src/lib/providers.ts:63 | the digits written denote the number: their base-10 value is `n` |
| Common.IntToDecimal | src/lib/providers.ts:63 | `String(n)` of an integral number: the natural form for `n >= 0`, a `-` before the natural form of `-n` otherwise |
| Common.IntToDecimalInjective | src/lib/providers.ts:63 | distinct numbers are rendered as distinct strings |
| Common.LexLessTotal | src/lib/providers.ts:108-110 | the order used for sorting languages is total on distinct codes |
| Common.LexLessTransitive | src/lib/providers.ts:108-110 | the order used for sorting languages is transitive |
| Common.LexLessIrreflexive | src/lib/providers.ts:108-110 | no code sorts before itself |
| Common.LexLessAsymmetric | src/lib/providers.ts:108-110 | two codes never sort before each other |
| Extractor.ScalarToString | src/lib/providers.ts:63 | `String(x)` of a string-or-number field: the text itself, the decimal form of the number, or `"null"` for a JSON `null` |
| Extractor.Coalesce | src/lib/providers.ts:63 | `x ?? d`: the default for an absent field or a `null`, the value otherwise |
| Extractor.CodecPresent | src/lib/providers.ts:71-72 | `codec !== 'none'`: only the codec `none` marks a missing track; an absent codec field counts as present |
| Extractor.QualityLabel | src/lib/providers.ts:66 | `format_note \|\| resolution`: the note when present and non-empty, otherwise the resolution as it is |
| Providers.MatchHereIsPattern | src/lib/providers.ts:41 | the executable test at one position is exactly the pattern `hianime(z)?\.(to\|is\|nz\|bz\|pe\|cx\|gs\|do)` occurring there |
| Providers.SearchHianime | src/lib/providers.ts:41 | the scan succeeds exactly when the pattern occurs at or after the start position |
| Providers.Match | src/lib/providers.ts:37-51 | the generic matcher always matches; the hianime matcher matches exactly the URLs containing the pattern |
| Providers.ResolveProvider | src/lib/providers.ts:53-59 | the result is `hianime` exactly when the URL contains the pattern, and `yt-dlp-generic` exactly when it does not |
| Providers.NormalizeFormat | src/lib/providers.ts:62-76 | `itag` is the stringified `format_id`, or `""` when it is absent or `null`; the label is `format_note \|\| resolution`; video/audio flags are false exactly for codec `none`; size is stringified exactly when the field is present, so a `null` size becomes `"null"`; `url` is copied, or `""` when absent; the other fields are copied |
| Providers.NormalizeFormats | src/lib/providers.ts:61-77 | one normalised format per raw format, in order |
| Providers.MakeTrack | src/lib/providers.ts:89-95 | the label is the entry's non-empty name, else the language code; the source and extension are recorded |
| Providers.FirstEntry | src/lib/providers.ts:86-90 | the first entry of the first non-empty list for a language; none exactly when every list for it is empty |
| Providers.ExpectedTrack | src/lib/providers.ts:94-96 | the track a language ends with is manual exactly when the manual table offers a non-empty list for it |
| Providers.OfferValid | src/lib/providers.ts:94-96 | one offer keeps the table consistent: order lists each key once and exactly the keys |
| Providers.CollectAt | src/lib/providers.ts:84-97 | after a pass, the track for a language is the one its first non-empty list gives, unless it was already there and is kept |
| Providers.ManualNeverReplaced | src/lib/providers.ts:94 | a manual track is never replaced |
| Providers.AutoKeptAgainstAuto | src/lib/providers.ts:94 | a second automatic pass never replaces an existing track |
| Providers.ManualReplacesAuto | src/lib/providers.ts:94-95 | a manual list replaces an automatic track of the same language |
| Providers.CollectValid | src/lib/providers.ts:84-97 | a whole pass keeps the table consistent |
| Providers.MergedIsExpected | src/lib/providers.ts:104-106 | automatic then manual collection gives, for every language, exactly the expected manual-first track |
| Providers.SubtitleTable.constructor | src/lib/providers.ts:104 | a new table is empty and consistent |
| Providers.SubtitleTable.Collect | src/lib/providers.ts:79-98 | the loop updates the table exactly as the fold `CollectSpec` over the caption table; a missing table changes nothing |
| Providers.SubtitleTable.Values | src/lib/providers.ts:108 | `Array.from(map.values())`: the tracks in key insertion order |
| Providers.InsertByLang | src/lib/providers.ts:108-110 | insertion keeps strict ascending order and adds exactly one track |
| Providers.SortByLang | src/lib/providers.ts:108-110 | tracks with distinct codes come out strictly ascending, with the same tracks |
| Providers.MergedValues | src/lib/providers.ts:104-108 | the table's values have distinct codes and are exactly the expected tracks |
| Providers.MapInfoToVideoInfo | src/lib/providers.ts:100-121 | defaults `Untitled`/`""`/`0`/`""` (a `null` duration also becomes `0`); provider echoed; formats normalised; subtitles sorted by code, each the expected manual-first track, and every language with one present |
| Errors.NormalizeYtDlpError | src/lib/errors.ts:1-14 | fallback unless an `Error` with a message; the fixed sentence when the message mentions `Unsupported URL`; else the message |
| Errors.SentenceLacksMarker | src/lib/errors.ts:9-11 | the replacement sentence does not itself contain `Unsupported URL` |
| Errors.SentencePartsLackMarker | src/lib/errors.ts:10 | the sentence, character by character, has no occurrence of the marker |
| Errors.NormalizeNonEmpty | src/lib/errors.ts:5-13 | with a non-empty fallback the message is never empty |
| Errors.NormalizeIdempotent | src/lib/errors.ts:1-14 | normalising an already normalised message changes nothing, for any fallback that does not mention `Unsupported URL` |
| YouTube.IsHianime | src/lib/youtube.ts:5-9 | the URL contains `hianime.to`, `hianimez.to`, `hianime.is` or `hianime.nz` |
| YouTube.RunYtDlp | src/lib/youtube.ts:11-22 | hianime hosts go through `python -m yt_dlp` with `pluginDirs` added and every other flag kept; other URLs launch directly with the flags unchanged |
| YouTube.GetRawInfo | src/lib/youtube.ts:24-39 | exactly the four metadata flags (plus `pluginDirs` for hianime); a launch or parse failure is rethrown unchanged |
| YouTube.IsHianimeImpliesProvider | src/lib/youtube.ts:5-9 | every URL launched through the plugin path is also resolved to the hianime provider |
| YouTube.ProviderDoesNotImplyIsHianime | src/lib/youtube.ts:5-9 | the converse fails: `hianime.bz` resolves to hianime but launches directly |
| DownloadRoute.ExpectedFlags | src/app/api/download/route.ts:58-84 | the reference option bag: the six common options, then MP3 extraction at quality `0` or an MP4 merge with `<itag>+bestaudio/best` or the default selector |
| DownloadRoute.ExpectedFlagsKeys | src/app/api/download/route.ts:58-84 | the option keys are the six common ones plus the three audio ones or the two video ones |
| DownloadRoute.ExpectedFlagsOutput | src/app/api/download/route.ts:56-64 | every download writes to `<tmp>/ytdl-<id>.%(ext)s` and passes the encoder path, or `null` without one |
| DownloadRoute.ExpectedFlagsSwitches | src/app/api/download/route.ts:58-65 | every download turns off warnings, the call home and certificate checks, and restricts file names |
| DownloadRoute.ExpectedFlagsAudio | src/app/api/download/route.ts:67-70 | an MP3 download extracts MP3 audio at quality `0` and sets no format selector or merge container |
| DownloadRoute.ExpectedFlagsVideo | src/app/api/download/route.ts:71-84 | any other type merges into MP4 and selects `<itag>+bestaudio/best` when an `itag` is given, else `bestvideo+bestaudio/best` |
| DownloadRoute.AudioIgnoresItag | src/app/api/download/route.ts:67-70 | an MP3 download's options do not depend on `itag` |
| DownloadRoute.BuildFlags | src/app/api/download/route.ts:56-84 | the flag object built step by step is exactly `ExpectedFlags` |
| DownloadRoute.AfterLastDot | src/app/api/download/route.ts:104 | `split('.').pop()`: a dot-free suffix of the name, preceded by a dot unless it is the whole name |
| DownloadRoute.Locate | src/app/api/download/route.ts:94-109 | the reference locator: the exact `ytdl-<id>.mp3`/`.mp4` name when listed, else the first listed name with the run prefix and the text after its last dot (the default extension when that is empty), else the not-found error |
| DownloadRoute.LocatedBelongsToRun | src/app/api/download/route.ts:94-108 | a located file is listed, carries the run prefix, and its extension is non-empty and dot-free |
| DownloadRoute.LocateFailsIffNoRunFile | src/app/api/download/route.ts:97-108 | the locator fails, with the not-found message, exactly when no listed name has the run prefix |
| DownloadRoute.LocateOutput | src/app/api/download/route.ts:94-108 | the handler's locator returns exactly what the rule `Locate` gives |
| DownloadRoute.ContentDisposition | src/app/api/download/route.ts:120 | `attachment; filename="download_<id>.<ext>"`; `EndToEnd.FilenameRoundTrip` shows the page reads the name back |
| DownloadRoute.ContentType | src/app/api/download/route.ts:121 | `audio/mpeg` exactly for `mp3`, `video/mp4` for every other type |
| DownloadRoute.Get | src/app/api/download/route.ts:40-131 | 400 without `url` or `type` and no extractor call; otherwise one call with `ExpectedFlags`, then a 500 with the error's message, or the located file with its attachment name and media type |
| DownloadRoute.AfterLastDotOfExtension | src/app/api/download/route.ts:101-104 | for a run-prefixed name the reported extension is exactly what follows the prefix |
| DownloadRoute.MkvServedAsMp4 | src/app/api/download/route.ts:97-121 | a video left as `.mkv` is found, named `.mkv`, and served as `video/mp4` |
| InfoRoute.MapFormat | src/app/api/info/route.ts:23-35 | identifier and size copied verbatim; video/audio false exactly for codec `none`; label as `format_note \|\| resolution`; type, container, dimensions and bitrate copied |
| InfoRoute.MapFormats | src/app/api/info/route.ts:17-35 | one mapped format per raw format, none when the list is absent |
| InfoRoute.MapFormatAgreesWithNormalize | src/app/api/info/route.ts:23-35 | the endpoint's mapping and the library's normalisation agree on codec flags, label, type, container, dimensions and bitrate; the library stringifies identifier and size (a `null` identifier is `""` there and `null` in the endpoint) and writes `""` for an absent `url`; only the library carries `language` |
| InfoRoute.Get | src/app/api/info/route.ts:6-59 | 400 `Missing logic` without a `url` and no launch; otherwise one launch with the metadata flags, a 500 with the error's message, or the raw fields copied without defaults |
| Page.GetErrorMessage | src/app/page.tsx:8-11 | only an `Error` with a non-empty message is shown; anything else shows the fallback |
| Page.GetErrorMessageVersusMessageOr | src/app/page.tsx:8-11 | the page agrees with the endpoints' `error.message \|\| fallback` on `Error` values and ignores the message of any other thrown value |
| Page.CaptureAt | src/app/page.tsx:15 | a match at a position captures a non-empty, quote-free run directly followed by a quote |
| Page.CaptureAtIff | src/app/page.tsx:15 | the pattern matches at a position exactly when `filename="` (any letter case) is there, followed by a non-quote and later a quote |
| Page.Captures | src/app/page.tsx:15 | the candidate capture at every start position of the header |
| Page.FirstSomeIsLeftmost | src/app/page.tsx:15 | the search finds nothing exactly when no position matches, and otherwise returns the leftmost match |
| Page.ParseFilename | src/app/page.tsx:13-17 | the fallback without a header or a match; otherwise the leftmost match's capture |
| Page.FirstOffer | src/app/page.tsx:83-93 | the first stream offering a height (an MP4 one when asked); none exactly when no stream offers it |
| Page.Choice | src/app/page.tsx:79-94 | the kept stream for a height is one of the formats at that height; it is not MP4 only when no MP4 stream of that height exists; none exactly when no eligible stream has that height |
| Page.FirstOfferSnoc | src/app/page.tsx:82-94 | one more stream becomes the first offer only when there was none |
| Page.ChoiceSnoc | src/app/page.tsx:85-93 | the map update of one iteration is exactly how the choice changes when one stream is appended |
| Page.KeepStep | src/app/page.tsx:82-94 | each iteration keeps the map equal to the choices of the streams seen so far |
| Page.InsertByHeight | src/app/page.tsx:96 | insertion keeps strict descending height and adds exactly the one stream (as a multiset) |
| Page.SortByHeight | src/app/page.tsx:96 | streams of distinct heights come out strictly descending, as a permutation |
| Page.ChosenValues | src/app/page.tsx:96 | the map's values have distinct heights, are the choices, and cover every height that has one |
| Page.SortedChoices | src/app/page.tsx:96-97 | sorting keeps exactly those streams |
| Page.ProcessFormats | src/app/page.tsx:79-99 | the list is strictly descending by height, holds exactly the choice for every height that has one, and the selection becomes the tallest one's `itag`, or stays as it was |
| Page.ParamGet | src/app/page.tsx:104-117 | `URLSearchParams.get`: the first value written under a key; none exactly when the key is absent |
| Page.FixedParams | src/app/page.tsx:104-109 | the query starts with `url`, `type`, `subtitleMode` and `artifact`, in that order |
| Page.OptionalParams | src/app/page.tsx:111-117 | the appended parameters are only `itag` and `subtitleLang` |
| Page.BuildParams | src/app/page.tsx:101-120 | no query without metadata; otherwise four to six parameters |
| Page.BuildParamsFixedKeys | src/app/page.tsx:104-109 | `url`, `type`, `subtitleMode` and `artifact` read back as the page state |
| Page.BuildParamsItag | src/app/page.tsx:111-113 | `itag` is sent, with the selection, exactly for MP4 with a non-empty selection |
| Page.BuildParamsSubtitleLang | src/app/page.tsx:115-117 | `subtitleLang` is sent exactly for MP4 with subtitles on and a non-empty language |
| Page.DefaultSubtitleLang | src/app/page.tsx:68-71 | no language without tracks; otherwise the first track whose code starts with `en`, else the first track |
| EndToEnd.RequestOf | src/app/api/download/route.ts:41-43 | the endpoint reads `url`, `type` and `itag` with `get` |
| EndToEnd.PageQueryDrivesFlags | src/app/api/download/route.ts:45-84 | the endpoint sees the page's URL and mode; MP4 with a selection asks for that stream plus the best audio, MP4 without one for the best video and audio, MP3 for audio extraction |
| EndToEnd.QuoteFreeEndAt | src/app/page.tsx:15 | the capture of `[^"]+` ends at the first quote |
| EndToEnd.CaptureOfHeader | src/app/api/download/route.ts:120 | in the endpoint's header nothing matches inside `attachment; `, and the match after it captures the file name |
| EndToEnd.FilenameRoundTrip | src/app/api/download/route.ts:120 | the page saves a download under exactly `download_<id>.<ext>`, the name the endpoint announces, when neither part has a quote |

## Left out

- `streamFile` (src/app/api/download/route.ts:10-38) is not modelled: reading the file, streaming it, and deleting it afterwards.
- `Content-Length` and `fs.statSync` are not modelled.
- The directory listing is an input. The model assumes `existsSync` and `readdirSync` see the same listing.
- The run id (`Date.now()` and `Math.random()` in base 36) is an input. `EndToEnd.FilenameRoundTrip` assumes only that it holds no quote, which base-36 text never does.
- The extractor subprocess, `ytDlp.args` serialisation and `execa` are not modelled. A launch is the value `YouTube.Invocation`, and its outcome is an input.
- `JSON.parse` of the extractor output is not modelled. Its result or exception is an input.
- A parsed metadata value of `null` is not modelled. The info endpoint would then throw on `info.formats`.
- Console logging is left out.
- The page's React state, rendering, `handleDownload` and `triggerDownload` (fetch, blob, anchor click) are left out. So are the duration display and the `fetchInfo` request itself.
- `fetchInfo` is represented only by its default-subtitle-language choice, `Page.DefaultSubtitleLang`.
- `localeCompare` is taken as ordinal order on characters. Locale collation is not modelled.
- The regular expressions are written as explicit predicates (`Providers.HianimeAt`, `Page.CaptureAt`). Letter case is folded for ASCII only, which is all the pattern contains.
- `path.join` is `dir + "/" + name`. Normalisation of `..` or repeated separators is not modelled.
- JavaScript numbers are unbounded integers. Fractional durations, bitrates and sizes are not modelled.
- `String(x)` is modelled for integers, strings and `null` only.
- JSON `null` is modelled only for the string-or-number fields (`format_id`, `filesize`, `duration`), where `=== undefined` and `??` tell it apart from an absent field. For the other fields an absent key and `null` are the same `None`. `??`, `||` and truthiness treat them alike, but the metadata endpoint, which copies fields verbatim, would answer with `null` where the model has no value.
- Caption tables are sequences in `Object.entries` order. JavaScript's reordering of integer-like keys is not modelled.
- A thrown `null` or `undefined` is not modelled. A `catch` block that reads `.message` from one would itself throw.
- `src/types/index.ts` is not part of this model. It is stale: its `VideoFormat.itag` is a number, and it lacks `SubtitleMode`, `provider` and `subtitles`.
- `Page.ProcessFormats` takes the library's `VideoFormat`. The real metadata endpoint returns `format_id` verbatim, so the page's `itag` may be a number there.
- Page.BuildParams: what each key reads back is stated in the lemmas `BuildParamsFixedKeys`, `BuildParamsItag` and `BuildParamsSubtitleLang`, not in the function's own contract.
- Page.BuildParams: the page state is the library `VideoInfo`, whose `url` defaults to `""`. The real page holds the metadata endpoint's answer (src/app/page.tsx:65), which copies `webpage_url` with no default. When the extractor reports no page URL, `URLSearchParams` sends the text `undefined`, which the download endpoint accepts and passes to the extractor.
- EndToEnd.PageQueryDrivesFlags: its clause "the endpoint sees a URL exactly when `info.url` is non-empty" holds for the modelled page state only. In the real flow described in the line above, the 400 for an empty URL does not arise.

=== FILE: common.dfy ===
/** Values shared by every part of the model: optional values, results,
    the values a JavaScript `catch` block can receive, and the string
    operations the code relies on (`includes`, `startsWith`, ordering). */
module Common {

  datatype Option<+T> = None | Some(value: T) {
    function GetOr(default: T): T {
      match this
      case Some(v) => v
      case None => default
    }
  }

  datatype Result<+R, +E> = Success(value: R) | Failure(error: E)

  /** What a `catch (error)` clause can receive: an `Error` instance (which
      always has a `message`, possibly empty) or any other thrown value, which
      may or may not carry a `message` property. */
  datatype Thrown = ErrorInstance(message: string) | NonError(messageProperty: Option<string>)

  /** `error.message || fallback` for an untyped `error`: the message when it
      is present and non-empty (JavaScript truthiness), otherwise the fallback. */
  function MessageOr(error: Thrown, fallback: string): (r: string)
    ensures ((error.ErrorInstance? && error.message == "") ||
             (error.NonError? && error.messageProperty.GetOr("") == "")) ==> r == fallback
    ensures error.ErrorInstance? && error.message != "" ==> r == error.message
    ensures (error.NonError? && error.messageProperty.Some? && error.messageProperty.value != "")
              ==> r == error.messageProperty.value
    ensures error.NonError? && error.messageProperty.None? ==> r == fallback
  {
    match error
    case ErrorInstance(m) => if m != "" then m else fallback
    case NonError(p) => if p.Some? && p.value != "" then p.value else fallback
  }

  /** `m.get(k)` on a JavaScript `Map`: the value stored under `k`, if any. */
  function MapGet<K, V>(m: map<K, V>, k: K): (r: Option<V>)
    ensures r.Some? <==> k in m
    ensures r.Some? ==> r.value == m[k]
  {
    if k in m then Some(m[k]) else None
  }

  /** A value in the option bag handed to the extractor: `true`, a string, or
      `null` (an unset executable path). */
  datatype FlagValue = FlagOn | FlagText(text: string) | FlagNull

  /** The extractor's option bag, keyed by option name (`noWarnings`, `format`, ...). */
  type Flags = map<string, FlagValue>

  /** `path.join(dir, name)` for a plain file name (no normalisation of `..`
      or repeated separators). */
  function PathJoin(dir: string, name: string): (r: string)
    ensures |r| == |dir| + 1 + |name|
    ensures r[|dir| + 1..] == name
  {
    dir + "/" + name
  }

  /** `s.startsWith(p)`. */
  predicate StartsWith(s: string, p: string) {
    |p| <= |s| && s[..|p|] == p
  }

  /** `files.find(f => f.startsWith(prefix))`, as the index of the entry found. */
  function FirstWithPrefix(files: seq<string>, prefix: string): (r: Option<nat>)
    ensures r.Some? ==> r.value < |files| && StartsWith(files[r.value], prefix)
    ensures r.Some? ==> forall j :: 0 <= j < r.value ==> !StartsWith(files[j], prefix)
    ensures r.None? ==> forall j :: 0 <= j < |files| ==> !StartsWith(files[j], prefix)
  {
    if |files| == 0 then None
    else if StartsWith(files[0], prefix) then Some(0)
    else
      var r := FirstWithPrefix(files[1..], prefix);
      if r.Some? then Some(r.value + 1) else None
  }

  /** `sub` occurs in `s` at position `i`. */
  predicate OccursAt(s: string, sub: string, i: int) {
    0 <= i && i + |sub| <= |s| && s[i..i + |sub|] == sub
  }

  /** `s.includes(sub)`. */
  predicate Contains(s: string, sub: string) {
    exists i :: 0 <= i <= |s| - |sub| && OccursAt(s, sub, i)
  }

  /** When the first character of `sub` occurs in `s` only at the given
      positions and `sub` occurs at none of them, `sub` does not occur in `s`. */
  lemma NotContainsByFirstChar(s: string, sub: string, starts: set<int>)
    requires |sub| > 0
    requires forall i :: 0 <= i < |s| && s[i] == sub[0] ==> i in starts
    requires forall i :: i in starts ==> !OccursAt(s, sub, i)
    ensures !Contains(s, sub)
  {
    forall i | 0 <= i <= |s| - |sub|
      ensures !OccursAt(s, sub, i)
    {
    }
  }

  // Decimal rendering of integers (`String(n)` for an integral JavaScript number)

  function DigitChar(d: nat): (c: char)
    requires d < 10
    ensures '0' <= c <= '9'
    ensures c as int - '0' as int == d
  {
    "0123456789"[d]
  }

  /** The number a string of decimal digits denotes, most significant first. */
  function DecimalValue(s: string): nat
    requires forall k :: 0 <= k < |s| ==> '0' <= s[k] <= '9'
  {
    if |s| == 0 then 0 else 10 * DecimalValue(s[..|s| - 1]) + (s[|s| - 1] as int - '0' as int)
  }

  /** `String(n)` for a natural number: decimal digits, with no leading zero
      unless the number is zero itself. */
  function NatToDecimal(n: nat): (r: string)
    ensures |r| > 0
    ensures forall k :: 0 <= k < |r| ==> '0' <= r[k] <= '9'
    ensures r[0] == '0' ==> n == 0
  {
    if n < 10 then [DigitChar(n)] else NatToDecimal(n / 10) + [DigitChar(n % 10)]
  }

  /** The digits `NatToDecimal` writes denote the number written. */
  lemma {:induction false} NatToDecimalValue(n: nat)
    ensures DecimalValue(NatToDecimal(n)) == n
    decreases n
  {
    if n >= 10 {
      var r := NatToDecimal(n);
      NatToDecimalValue(n / 10);
      assert r[..|r| - 1] == NatToDecimal(n / 10);
    }
  }

  /** `String(n)` for an integer: a minus sign before the digits of `-n` when negative. */
  function IntToDecimal(n: int): (r: string)
    ensures |r| > 0
    ensures n >= 0 ==> forall k :: 0 <= k < |r| ==> '0' <= r[k] <= '9'
    ensures n < 0 ==> r[0] == '-' && r[1..] == NatToDecimal(-n)
    ensures n >= 0 ==> r == NatToDecimal(n)
  {
    if n >= 0 then NatToDecimal(n) else "-" + NatToDecimal(-n)
  }

  /** Distinct integers have distinct decimal forms. */
  lemma IntToDecimalInjective(a: int, b: int)
    requires IntToDecimal(a) == IntToDecimal(b)
    ensures a == b
  {
    var s := IntToDecimal(a);
    if a >= 0 && b >= 0 {
      NatToDecimalValue(a);
      NatToDecimalValue(b);
    } else if a < 0 && b < 0 {
      NatToDecimalValue(-a);
      NatToDecimalValue(-b);
    }
  }

  // Ordinal lexicographic order on strings

  /** `a` sorts strictly before `b`, comparing characters by code point. */
  predicate LexLess(a: string, b: string)
    decreases |a|
  {
    |b| > 0 && (|a| == 0 || a[0] < b[0] || (a[0] == b[0] && LexLess(a[1..], b[1..])))
  }

  lemma {:induction false} LexLessIrreflexive(a: string)
    ensures !LexLess(a, a)
    decreases |a|
  {
    if |a| > 0 {
      LexLessIrreflexive(a[1..]);
    }
  }

  lemma {:induction false} LexLessTotal(a: string, b: string)
    requires a != b
    ensures LexLess(a, b) || LexLess(b, a)
    decreases |a|
  {
    if |a| > 0 && |b| > 0 && a[0] == b[0] {
      assert a == [a[0]] + a[1..] && b == [b[0]] + b[1..];
      LexLessTotal(a[1..], b[1..]);
    }
  }

  lemma {:induction false} LexLessTransitive(a: string, b: string, c: string)
    requires LexLess(a, b) && LexLess(b, c)
    ensures LexLess(a, c)
    decreases |a|
  {
    if |a| > 0 && a[0] == b[0] && b[0] == c[0] {
      LexLessTransitive(a[1..], b[1..], c[1..]);
    }
  }

  lemma LexLessAsymmetric(a: string, b: string)
    requires LexLess(a, b)
    ensures !LexLess(b, a)
  {
    if LexLess(b, a) {
      LexLessTransitive(a, b, a);
      LexLessIrreflexive(a);
    }
  }
}

=== FILE: download_route.dfy ===
/** The download endpoint: parameter check, the extractor options for an
    audio or a video download, locating the file the extractor wrote, and the
    response headers. The run id, the directory listing and the extractor's
    outcome are inputs; the file streaming itself is not modelled. */
module DownloadRoute {
  import opened Common

  /** The query parameters as `searchParams.get` returns them (absent = null). */
  datatype Request = Request(url: Option<string>, kind: Option<string>, itag: Option<string>)

  /** A present, non-empty parameter (JavaScript truthiness of a string or null). */
  predicate Given(p: Option<string>) {
    p.Some? && p.value != ""
  }

  // ---------------------------------------------------------------------------
  // Extractor options
  // ---------------------------------------------------------------------------

  /** The file prefix of one run; the extractor appends the extension. */
  function RunPrefix(runId: string): string {
    "ytdl-" + runId + "."
  }

  /** `<tmp>/ytdl-<id>.%(ext)s`. */
  function OutputTemplate(tempDir: string, runId: string): string {
    PathJoin(tempDir, RunPrefix(runId) + "%(ext)s")
  }

  /** Options every download carries. */
  const CommonKeys: set<string> :=
    {"noWarnings", "noCallHome", "noCheckCertificate", "output", "restrictFilenames", "ffmpegLocation"}

  /** Options added for an audio download. */
  const AudioKeys: set<string> := {"extractAudio", "audioFormat", "audioQuality"}

  /** Options added for a video download. */
  const VideoKeys: set<string> := {"mergeOutputFormat", "format"}

  /** The format selector of a video download: the chosen stream merged with
      the best audio, else the best video and audio. */
  function VideoSelector(formatId: Option<string>): string {
    if Given(formatId) then formatId.value + "+bestaudio/best" else "bestvideo+bestaudio/best"
  }

  /** The option bag a download ends up with, written as one record. */
  function ExpectedFlags(kind: string, formatId: Option<string>, tempDir: string, runId: string,
                         ffmpegPath: Option<string>): Flags
  {
    var base := map[
      "noWarnings" := FlagOn,
      "noCallHome" := FlagOn,
      "noCheckCertificate" := FlagOn,
      "output" := FlagText(OutputTemplate(tempDir, runId)),
      "restrictFilenames" := FlagOn,
      "ffmpegLocation" := if ffmpegPath.Some? then FlagText(ffmpegPath.value) else FlagNull];
    if kind == "mp3" then
      base + map["extractAudio" := FlagOn, "audioFormat" := FlagText("mp3"), "audioQuality" := FlagText("0")]
    else
      base + map["mergeOutputFormat" := FlagText("mp4"), "format" := FlagText(VideoSelector(formatId))]
  }

  /** The option keys: the common ones plus the audio or the video ones. */
  lemma ExpectedFlagsKeys(kind: string, formatId: Option<string>, tempDir: string, runId: string,
                          ffmpegPath: Option<string>)
    ensures ExpectedFlags(kind, formatId, tempDir, runId, ffmpegPath).Keys ==
              CommonKeys + (if kind == "mp3" then AudioKeys else VideoKeys)
  {
  }

  /** Every option bag writes to the run's output template and passes the
      encoder path, or `null` without one. */
  lemma ExpectedFlagsOutput(kind: string, formatId: Option<string>, tempDir: string, runId: string,
                            ffmpegPath: Option<string>)
    ensures var f := ExpectedFlags(kind, formatId, tempDir, runId, ffmpegPath);
      && f["output"] == FlagText(OutputTemplate(tempDir, runId))
      && f["ffmpegLocation"] == (if ffmpegPath.Some? then FlagText(ffmpegPath.value) else FlagNull)
  {
  }

  /** Every option bag switches off warnings, the call home and certificate
      checks, and restricts file names. */
  lemma ExpectedFlagsSwitches(kind: string, formatId: Option<string>, tempDir: string, runId: string,
                              ffmpegPath: Option<string>)
    ensures var f := ExpectedFlags(kind, formatId, tempDir, runId, ffmpegPath);
      f["noWarnings"] == f["noCallHome"] == f["noCheckCertificate"] == f["restrictFilenames"] == FlagOn
  {
  }

  /** An audio download extracts MP3 at the best quality and selects no format. */
  lemma ExpectedFlagsAudio(formatId: Option<string>, tempDir: string, runId: string, ffmpegPath: Option<string>)
    ensures var f := ExpectedFlags("mp3", formatId, tempDir, runId, ffmpegPath);
      && f["extractAudio"] == FlagOn && f["audioFormat"] == FlagText("mp3") && f["audioQuality"] == FlagText("0")
      && "format" !in f && "mergeOutputFormat" !in f
  {
  }

  /** A video download merges into MP4 and selects the requested stream with
      the best audio, or the best video and audio. */
  lemma ExpectedFlagsVideo(kind: string, formatId: Option<string>, tempDir: string, runId: string,
                           ffmpegPath: Option<string>)
    requires kind != "mp3"
    ensures var f := ExpectedFlags(kind, formatId, tempDir, runId, ffmpegPath);
      && f["mergeOutputFormat"] == FlagText("mp4") && "extractAudio" !in f
      && f["format"] == FlagText(if Given(formatId) then formatId.value + "+bestaudio/best" else "bestvideo+bestaudio/best")
  {
  }

  /** The audio options do not depend on the requested format id. */
  lemma AudioIgnoresItag(formatId1: Option<string>, formatId2: Option<string>, tempDir: string, runId: string,
                         ffmpegPath: Option<string>)
    ensures ExpectedFlags("mp3", formatId1, tempDir, runId, ffmpegPath) ==
            ExpectedFlags("mp3", formatId2, tempDir, runId, ffmpegPath)
  {
  }

  /** The flag object built field by field, as the handler does. */
  method BuildFlags(kind: string, formatId: Option<string>, tempDir: string, runId: string,
                    ffmpegPath: Option<string>) returns (flags: Flags)
    ensures flags == ExpectedFlags(kind, formatId, tempDir, runId, ffmpegPath)
  {
    flags := map[
      "noWarnings" := FlagOn,
      "noCallHome" := FlagOn,
      "noCheckCertificate" := FlagOn,
      "output" := FlagText(OutputTemplate(tempDir, runId)),
      "restrictFilenames" := FlagOn,
      "ffmpegLocation" := if ffmpegPath.Some? then FlagText(ffmpegPath.value) else FlagNull];
    if kind == "mp3" {
      flags := flags["extractAudio" := FlagOn];
      flags := flags["audioFormat" := FlagText("mp3")];
      flags := flags["audioQuality" := FlagText("0")];
    } else {
      flags := flags["mergeOutputFormat" := FlagText("mp4")];
      if Given(formatId) {
        flags := flags["format" := FlagText(formatId.value + "+bestaudio/best")];
      } else {
        flags := flags["format" := FlagText("bestvideo+bestaudio/best")];
      }
    }
  }

  // ---------------------------------------------------------------------------
  // Locating the output file
  // ---------------------------------------------------------------------------

  /** `name.split('.').pop()`: the text after the last dot (all of `name` when
      it has none). */
  function AfterLastDot(name: string): (r: string)
    ensures |r| <= |name| && r == name[|name| - |r|..]
    ensures forall k :: 0 <= k < |r| ==> r[k] != '.'
    ensures |r| < |name| ==> name[|name| - |r| - 1] == '.'
  {
    if |name| == 0 then ""
    else if name[|name| - 1] == '.' then ""
    else
      var r := AfterLastDot(name[..|name| - 1]);
      r + [name[|name| - 1]]
  }

  /** The file found for a run, its full path, and the extension reported to the client. */
  datatype Located = Located(name: string, path: string, extension: string)

  const NotFoundMessage: string := "Downloaded file not found on execution completion."

  /** The expected extension of a download type. */
  function DefaultExtension(kind: string): string {
    if kind == "mp3" then "mp3" else "mp4"
  }

  /** The locator as a rule: the exact `ytdl-<id>.mp3`/`.mp4` name when it is
      listed; else the first listed name with the run prefix, whose extension is
      what follows its last dot (the default when that is empty); else not found. */
  function Locate(kind: string, tempDir: string, runId: string, listing: seq<string>): Result<Located, string> {
    var expected := RunPrefix(runId) + DefaultExtension(kind);
    if expected in listing then Success(Located(expected, PathJoin(tempDir, expected), DefaultExtension(kind)))
    else
      match FirstWithPrefix(listing, RunPrefix(runId))
      case Some(k) =>
        var popped := AfterLastDot(listing[k]);
        Success(Located(listing[k], PathJoin(tempDir, listing[k]), if popped != "" then popped else DefaultExtension(kind)))
      case None => Failure(NotFoundMessage)
  }

  lemma DefaultExtensionHasNoDot(kind: string)
    ensures DefaultExtension(kind) != ""
    ensures forall k :: 0 <= k < |DefaultExtension(kind)| ==> DefaultExtension(kind)[k] != '.'
  {
    var e := DefaultExtension(kind);
    assert e == "mp3" || e == "mp4";
  }

  lemma ExpectedNameHasPrefix(runId: string, ext: string)
    ensures StartsWith(RunPrefix(runId) + ext, RunPrefix(runId))
  {
    var name := RunPrefix(runId) + ext;
    assert name[..|RunPrefix(runId)|] == RunPrefix(runId);
  }

  /** Any located file belongs to the run, is listed, and its extension is
      non-empty and has no dot. */
  lemma LocatedBelongsToRun(kind: string, tempDir: string, runId: string, listing: seq<string>)
    requires Locate(kind, tempDir, runId, listing).Success?
    ensures var loc := Locate(kind, tempDir, runId, listing).value;
      && StartsWith(loc.name, RunPrefix(runId))
      && loc.name in listing
      && loc.path == PathJoin(tempDir, loc.name)
      && loc.extension != ""
      && forall k :: 0 <= k < |loc.extension| ==> loc.extension[k] != '.'
  {
    var expected := RunPrefix(runId) + DefaultExtension(kind);
    DefaultExtensionHasNoDot(kind);
    if expected in listing {
      ExpectedNameHasPrefix(runId, DefaultExtension(kind));
    } else {
      var k := FirstWithPrefix(listing, RunPrefix(runId)).value;
      var popped := AfterLastDot(listing[k]);
      assert Locate(kind, tempDir, runId, listing).value.extension ==
               if popped != "" then popped else DefaultExtension(kind);
    }
  }

  /** The locator fails exactly when no listed name has the run prefix. */
  lemma LocateFailsIffNoRunFile(kind: string, tempDir: string, runId: string, listing: seq<string>)
    ensures Locate(kind, tempDir, runId, listing).Failure? <==>
              forall j :: 0 <= j < |listing| ==> !StartsWith(listing[j], RunPrefix(runId))
    ensures Locate(kind, tempDir, runId, listing).Failure? ==>
              Locate(kind, tempDir, runId, listing).error == NotFoundMessage
  {
    var expected := RunPrefix(runId) + DefaultExtension(kind);
    if expected in listing {
      assert expected[..|RunPrefix(runId)|] == RunPrefix(runId);
    }
  }

  /** The handler's locator: assume the expected name, and fall back to a
      listing search that reassigns the path and the extension. `listing`
      stands for the temporary directory's entries, both for the existence
      check and for `readdirSync`. */
  method LocateOutput(kind: string, tempDir: string, runId: string, listing: seq<string>)
    returns (r: Result<Located, string>)
    ensures r == Locate(kind, tempDir, runId, listing)
  {
    var extension := if kind == "mp3" then "mp3" else "mp4";
    var name := "ytdl-" + runId + "." + extension;
    var finalPath := PathJoin(tempDir, name);
    if name !in listing {
      var found := FirstWithPrefix(listing, "ytdl-" + runId + ".");
      if found.Some? {
        name := listing[found.value];
        finalPath := PathJoin(tempDir, name);
        var popped := AfterLastDot(name);
        extension := if popped != "" then popped else extension;
      } else {
        return Failure(NotFoundMessage);
      }
    }
    return Success(Located(name, finalPath, extension));
  }

  // ---------------------------------------------------------------------------
  // Response
  // ---------------------------------------------------------------------------

  /** `attachment; filename="download_<id>.<ext>"`. */
  function ContentDisposition(runId: string, extension: string): string {
    "attachment; filename=\"" + "download_" + runId + "." + extension + "\""
  }

  /** The media type follows the requested type, not the located extension. */
  function ContentType(kind: string): (r: string)
    ensures r == "audio/mpeg" <==> kind == "mp3"
    ensures r == "video/mp4" <==> kind != "mp3"
  {
    if kind == "mp3" then "audio/mpeg" else "video/mp4"
  }

  datatype Response =
    | JsonError(status: int, error: string)
    | FileResponse(path: string, contentDisposition: string, contentType: string)

  /** The one extractor call a request makes. */
  datatype ExtractorCall = ExtractorCall(url: string, flags: Flags)

  const MissingParameters: string := "Missing parameters"
  const DownloadFailed: string := "Download failed"

  /** `GET /api/download`. A missing `url` or `type` is a 400 before anything
      runs; otherwise the extractor is called once with the built options, and
      a failure of the call or of the locator is a 500 carrying its message. */
  method Get(req: Request, runId: string, tempDir: string, ffmpegPath: Option<string>,
             download: Result<(), Thrown>, listing: seq<string>)
    returns (resp: Response, call: Option<ExtractorCall>)
    ensures !Given(req.url) || !Given(req.kind) ==> resp == JsonError(400, MissingParameters) && call.None?
    ensures Given(req.url) && Given(req.kind) ==>
              call == Some(ExtractorCall(req.url.value,
                                         ExpectedFlags(req.kind.value, req.itag, tempDir, runId, ffmpegPath)))
    ensures Given(req.url) && Given(req.kind) && download.Failure? ==>
              resp == JsonError(500, MessageOr(download.error, DownloadFailed))
    ensures Given(req.url) && Given(req.kind) && download.Success? ==>
              match Locate(req.kind.value, tempDir, runId, listing)
              case Failure(m) => resp == JsonError(500, m)
              case Success(loc) =>
                resp == FileResponse(loc.path, ContentDisposition(runId, loc.extension), ContentType(req.kind.value))
  {
    if !Given(req.url) || !Given(req.kind) {
      return JsonError(400, MissingParameters), None;
    }
    var kind := req.kind.value;
    var flags := BuildFlags(kind, req.itag, tempDir, runId, ffmpegPath);
    call := Some(ExtractorCall(req.url.value, flags));
    if download.Failure? {
      return JsonError(500, MessageOr(download.error, DownloadFailed)), call;
    }
    var located := LocateOutput(kind, tempDir, runId, listing);
    if located.Failure? {
      return JsonError(500, MessageOr(ErrorInstance(located.error), DownloadFailed)), call;
    }
    resp := FileResponse(located.value.path, ContentDisposition(runId, located.value.extension), ContentType(kind));
  }

  /** The extension after a dot-terminated prefix is read back exactly. */
  lemma {:induction false} AfterLastDotOfExtension(prefix: string, ext: string)
    requires |prefix| > 0 && prefix[|prefix| - 1] == '.'
    requires forall k :: 0 <= k < |ext| ==> ext[k] != '.'
    ensures AfterLastDot(prefix + ext) == ext
    decreases |ext|
  {
    var name := prefix + ext;
    if |ext| == 0 {
      assert name == prefix;
    } else {
      assert name[..|name| - 1] == prefix + ext[..|ext| - 1];
      AfterLastDotOfExtension(prefix, ext[..|ext| - 1]);
      assert ext == ext[..|ext| - 1] + [ext[|ext| - 1]];
    }
  }

  /** A video download that the extractor left as `.mkv` is still announced as
      `video/mp4`, under a `.mkv` attachment name. */
  lemma MkvServedAsMp4(runId: string, tempDir: string)
    ensures var name := RunPrefix(runId) + "mkv";
      && Locate("mp4", tempDir, runId, [name]) == Success(Located(name, PathJoin(tempDir, name), "mkv"))
      && ContentType("mp4") == "video/mp4"
  {
    var p := RunPrefix(runId);
    var name := p + "mkv";
    ExpectedNameHasPrefix(runId, "mkv");
    assert FirstWithPrefix([name], p) == Some(0);
    assert p + "mp4" != name by {
      assert (p + "mp4")[|p| + 1] == "mp4"[1];
      assert name[|p| + 1] == "mkv"[1];
    }
    AfterLastDotOfExtension(p, "mkv");
  }
}

=== FILE: end_to_end.dfy ===
/** Properties that join the page and the download endpoint: the query the
    page sends is read back by the endpoint as the page meant it, and the
    file name the endpoint advertises is the one the page saves under. */
module EndToEnd {
  import opened Common
  import Providers
  import DownloadRoute
  import Page

  /** The request the download endpoint reads from the page's query. */
  function RequestOf(ps: Page.Params): (r: DownloadRoute.Request)
    ensures r.url == Page.ParamGet(ps, "url")
    ensures r.kind == Page.ParamGet(ps, "type")
    ensures r.itag == Page.ParamGet(ps, "itag")
  {
    DownloadRoute.Request(Page.ParamGet(ps, "url"), Page.ParamGet(ps, "type"), Page.ParamGet(ps, "itag"))
  }

  /** With metadata loaded, the endpoint sees the page's URL and mode; an MP4
      download with a selected quality asks the extractor for that stream
      merged with the best audio, one without a selection for the best video
      and audio, and an MP3 download for audio extraction. */
  lemma PageQueryDrivesFlags(info: Providers.VideoInfo, mode: Page.Mode, subtitleMode: Page.SubtitleMode,
                             selectedQuality: string, selectedSubtitleLang: string, artifact: Page.Artifact,
                             tempDir: string, runId: string, ffmpegPath: Option<string>)
    ensures var ps := Page.BuildParams(Some(info), mode, subtitleMode, selectedQuality, selectedSubtitleLang, artifact).value;
      var req := RequestOf(ps);
      && req.url == Some(info.url)
      && req.kind == Some(Page.ModeName(mode))
      && (DownloadRoute.Given(req.url) <==> info.url != "")
      && DownloadRoute.Given(req.kind)
      && var flags := DownloadRoute.ExpectedFlags(req.kind.value, req.itag, tempDir, runId, ffmpegPath);
         && (mode == Page.Mp4Mode && selectedQuality != "" ==>
               flags["format"] == FlagText(selectedQuality + "+bestaudio/best"))
         && (mode == Page.Mp4Mode && selectedQuality == "" ==>
               flags["format"] == FlagText("bestvideo+bestaudio/best"))
         && (mode == Page.Mp3Mode ==> flags["extractAudio"] == FlagOn && "format" !in flags)
  {
    var ps := Page.BuildParams(Some(info), mode, subtitleMode, selectedQuality, selectedSubtitleLang, artifact).value;
    Page.BuildParamsFixedKeys(Some(info), mode, subtitleMode, selectedQuality, selectedSubtitleLang, artifact);
    Page.BuildParamsItag(Some(info), mode, subtitleMode, selectedQuality, selectedSubtitleLang, artifact);
    var req := RequestOf(ps);
    if mode == Page.Mp3Mode {
      DownloadRoute.ExpectedFlagsAudio(req.itag, tempDir, runId, ffmpegPath);
    } else {
      DownloadRoute.ExpectedFlagsVideo(req.kind.value, req.itag, tempDir, runId, ffmpegPath);
    }
  }

  /** The scan for the closing quote stops at the first quote. */
  lemma {:induction false} QuoteFreeEndAt(h: string, k: nat, j: nat)
    requires k <= j < |h| && h[j] == '"'
    requires forall m :: k <= m < j ==> h[m] != '"'
    ensures Page.QuoteFreeEnd(h, k) == j
    decreases j - k
  {
    if k < j {
      QuoteFreeEndAt(h, k + 1, j);
    }
  }

  /** In the endpoint's header the pattern cannot match inside the leading
      `attachment; ` and matches right after it, capturing the file name. */
  lemma CaptureOfHeader(h: string, lead: string, name: string)
    requires lead == "attachment; "
    requires h == lead + Page.FilenameKey + name + "\""
    requires name != [] && forall c :: c in name ==> c != '"'
    ensures forall i: nat :: i < |lead| ==> Page.CaptureAt(h, i).None?
    ensures Page.CaptureAt(h, |lead|) == Some(name)
  {
    forall i: nat | i < |lead|
      ensures !Page.KeyAt(h, i)
    {
      assert h[i] == lead[i];
      assert Page.FoldAscii(h[i]) != Page.FilenameKey[0];
    }
    var start := |lead| + |Page.FilenameKey|;
    assert Page.KeyAt(h, |lead|) by {
      forall k | 0 <= k < |Page.FilenameKey|
        ensures Page.FoldAscii(h[|lead| + k]) == Page.FilenameKey[k]
      {
        assert h[|lead| + k] == Page.FilenameKey[k];
      }
    }
    forall m | start <= m < start + |name|
      ensures h[m] != '"'
    {
      assert h[m] == name[m - start] && name[m - start] in name;
    }
    QuoteFreeEndAt(h, start, start + |name|);
    assert h[start..start + |name|] == name;
  }

  /** The page saves a download under exactly the name the endpoint puts in
      `Content-Disposition`, whatever the fallback, as long as the run id and
      the extension hold no quote. */
  lemma FilenameRoundTrip(runId: string, extension: string, fallback: string)
    requires forall c :: c in runId ==> c != '"'
    requires forall c :: c in extension ==> c != '"'
    ensures Page.ParseFilename(Some(DownloadRoute.ContentDisposition(runId, extension)), fallback) ==
            "download_" + runId + "." + extension
  {
    var name := "download_" + runId + "." + extension;
    var h := DownloadRoute.ContentDisposition(runId, extension);
    var lead := "attachment; ";
    assert h == lead + Page.FilenameKey + name + "\"";
    assert forall c :: c in name ==> c != '"' by {
      forall c | c in name
        ensures c != '"'
      {
        assert c in "download_" + runId || c in "." + extension;
      }
    }
    CaptureOfHeader(h, lead, name);
    var r := Page.ParseFilename(Some(h), fallback);
    assert Page.CaptureAt(h, |lead|).Some?;
    var i: nat :| i <= |h| && Page.CaptureAt(h, i) == Some(r) &&
                  forall j: nat :: j < i ==> Page.CaptureAt(h, j).None?;
    assert i == |lead|;
  }
}

=== FILE: errors.dfy ===
/** Normalisation of extractor failures into the message shown to the user. */
module Errors {
  import opened Common

  /** The substring by which the extractor reports a URL it has no extractor for. */
  const UnsupportedMarker: string := "Unsupported URL"

  /** The user-facing sentence that replaces such a message, written as
      short pieces so that its characters can be read off one by one. */
  const UnsupportedSentence: string :=
    "This URL is not" + " supported by t" + "he current yt-d" + "lp extractor."

  /** `normalizeYtDlpError`: the fallback unless the value is an `Error` with a
      non-empty message; then the fixed sentence when the message mentions an
      unsupported URL, else the message itself. */
  function NormalizeYtDlpError(error: Thrown, fallback: string): (r: string)
    ensures !error.ErrorInstance? || error.message == "" ==> r == fallback
    ensures error.ErrorInstance? && error.message != "" && Contains(error.message, UnsupportedMarker) ==>
              r == UnsupportedSentence
    ensures error.ErrorInstance? && error.message != "" && !Contains(error.message, UnsupportedMarker) ==>
              r == error.message
  {
    if !error.ErrorInstance? || error.message == "" then fallback
    else if Contains(error.message, UnsupportedMarker) then UnsupportedSentence
    else error.message
  }

  /** The replacement sentence does not itself mention an unsupported URL:
      its only capital `U` starts "URL is", not "Unsupported URL". */
  lemma SentenceLacksMarker()
    ensures !Contains(UnsupportedSentence, UnsupportedMarker)
  {
    SentencePartsLackMarker(UnsupportedSentence);
  }

  lemma SentencePartsLackMarker(s: string)
    requires s == "This URL is not" + " supported by t" + "he current yt-d" + "lp extractor."
    ensures !Contains(s, UnsupportedMarker)
  {
    var m := UnsupportedMarker;
    assert forall i :: 0 <= i < |s| && s[i] == m[0] ==> i == 5;
    assert s[6] != m[1];
    NotContainsByFirstChar(s, m, {5});
  }

  /** With a non-empty fallback the result is never empty. */
  lemma NormalizeNonEmpty(error: Thrown, fallback: string)
    requires fallback != ""
    ensures NormalizeYtDlpError(error, fallback) != ""
  {
  }

  /** Normalising an `Error` that already carries a normalised message gives
      the same message back, provided the fallback does not mention an
      unsupported URL. */
  lemma NormalizeIdempotent(error: Thrown, fallback: string)
    requires !Contains(fallback, UnsupportedMarker)
    ensures NormalizeYtDlpError(ErrorInstance(NormalizeYtDlpError(error, fallback)), fallback)
              == NormalizeYtDlpError(error, fallback)
  {
    SentenceLacksMarker();
  }
}

=== FILE: extractor.dfy ===
/** The metadata record the external extractor prints as one JSON document,
    as the code reads it after parsing. Every field may be absent. */
module Extractor {
  import opened Common

  /** A JSON value the code accepts as either a string or a number
      (`format_id`, `filesize`, `duration`), or the `null` the extractor
      writes for an unknown value. Numbers are integral here. */
  datatype Scalar = Text(text: string) | Number(number: int) | Null

  /** `String(x)` of a string-or-number value; `String(null)` is `"null"`. */
  function ScalarToString(x: Scalar): (r: string)
    ensures x.Text? ==> r == x.text
    ensures x.Number? ==> r == IntToDecimal(x.number)
    ensures x.Null? ==> r == "null"
  {
    match x
    case Text(s) => s
    case Number(n) => IntToDecimal(n)
    case Null => "null"
  }

  /** `x ?? d`: the default when the field is absent or `null`. */
  function Coalesce(x: Option<Scalar>, d: Scalar): (r: Scalar)
    ensures x.None? || x == Some(Null) ==> r == d
    ensures x.Some? && !x.value.Null? ==> r == x.value
  {
    if x.None? || x.value.Null? then d else x.value
  }

  /** One stream variant the extractor reports. */
  datatype RawFormat = RawFormat(
    formatId: Option<Scalar>,
    url: Option<string>,
    ext: Option<string>,
    formatNote: Option<string>,
    resolution: Option<string>,
    tbr: Option<int>,
    width: Option<int>,
    height: Option<int>,
    vcodec: Option<string>,
    acodec: Option<string>,
    filesize: Option<Scalar>,
    language: Option<string>)

  /** One caption file offered for a language. */
  datatype RawSubtitleEntry = RawSubtitleEntry(ext: Option<string>, name: Option<string>)

  /** A caption table (`Record<string, entries[]>`) as `Object.entries` lists it:
      language code paired with the entries for that language, in key order. */
  type Captions = seq<(string, seq<RawSubtitleEntry>)>

  datatype RawInfo = RawInfo(
    title: Option<string>,
    thumbnail: Option<string>,
    duration: Option<Scalar>,
    webpageUrl: Option<string>,
    formats: Option<seq<RawFormat>>,
    subtitles: Option<Captions>,
    automaticCaptions: Option<Captions>)

  /** The codec sentinel the extractor uses for "this stream has no such track". */
  const NoCodec: string := "none"

  /** `codec !== 'none'`: an absent codec field counts as present. */
  predicate CodecPresent(codec: Option<string>) {
    codec != Some(NoCodec)
  }

  /** `format_note || resolution`: the note when it is a non-empty string,
      otherwise the resolution as it is (possibly absent). */
  function QualityLabel(f: RawFormat): (r: Option<string>)
    ensures f.formatNote.Some? && f.formatNote.value != "" ==> r == f.formatNote
    ensures !(f.formatNote.Some? && f.formatNote.value != "") ==> r == f.resolution
  {
    if f.formatNote.Some? && f.formatNote.value != "" then f.formatNote else f.resolution
  }
}

=== FILE: info_route.dfy ===
/** The metadata endpoint: checks the `url` parameter, fetches the raw
    metadata and maps its formats one-to-one, copying the top-level fields
    without defaults. */
module InfoRoute {
  import opened Common
  import opened Extractor
  import YouTube
  import Providers

  /** A format as this endpoint returns it: identifier and size verbatim. */
  datatype InfoFormat = InfoFormat(
    itag: Option<Scalar>,
    url: Option<string>,
    mimeType: Option<string>,
    qualityLabel: Option<string>,
    bitrate: Option<int>,
    width: Option<int>,
    height: Option<int>,
    container: Option<string>,
    hasVideo: bool,
    hasAudio: bool,
    contentLength: Option<Scalar>)

  function MapFormat(f: RawFormat): (r: InfoFormat)
    ensures r.itag == f.formatId && r.contentLength == f.filesize && r.url == f.url
    ensures !r.hasVideo <==> f.vcodec == Some(NoCodec)
    ensures !r.hasAudio <==> f.acodec == Some(NoCodec)
    ensures r.qualityLabel == QualityLabel(f)
    ensures r.mimeType == f.ext && r.container == f.ext
    ensures r.height == f.height && r.width == f.width && r.bitrate == f.tbr
  {
    InfoFormat(
      itag := f.formatId,
      url := f.url,
      mimeType := f.ext,
      qualityLabel := QualityLabel(f),
      bitrate := f.tbr,
      width := f.width,
      height := f.height,
      container := f.ext,
      hasVideo := CodecPresent(f.vcodec),
      hasAudio := CodecPresent(f.acodec),
      contentLength := f.filesize)
  }

  /** `(info.formats || []).map(...)`: same length and order; none when absent. */
  function MapFormats(formats: Option<seq<RawFormat>>): (r: seq<InfoFormat>)
    ensures formats.None? ==> r == []
    ensures formats.Some? ==> |r| == |formats.value|
    ensures formats.Some? ==> forall i :: 0 <= i < |r| ==> r[i] == MapFormat(formats.value[i])
  {
    var fs := formats.GetOr([]);
    seq(|fs|, i requires 0 <= i < |fs| => MapFormat(fs[i]))
  }

  /** This endpoint and the provider normalisation agree on every format:
      the same codec flags, label, type, container, dimensions and bitrate;
      the provider's strings are the stringified identifier and size, and its
      URL is `""` where the endpoint has none. */
  lemma MapFormatAgreesWithNormalize(f: RawFormat)
    ensures var a, b := MapFormat(f), Providers.NormalizeFormat(f);
      && a.hasVideo == b.hasVideo && a.hasAudio == b.hasAudio
      && a.qualityLabel == b.qualityLabel && a.height == b.height && a.width == b.width
      && a.container == b.container && a.bitrate == b.bitrate
      && a.mimeType == b.mimeType && b.url == a.url.GetOr("")
      && b.itag == ScalarToString(Coalesce(a.itag, Text("")))
      && (a.contentLength.None? <==> b.contentLength.None?)
      && (a.contentLength.Some? ==> b.contentLength == Some(ScalarToString(a.contentLength.value)))
  {
  }

  datatype InfoResponse =
    | InfoBody(title: Option<string>, thumbnail: Option<string>, duration: Option<Scalar>,
               formats: seq<InfoFormat>, url: Option<string>)
    | InfoError(status: int, error: string)

  /** The response and the extractor launch, if one was made. */
  datatype Handled = Handled(response: InfoResponse, invocation: Option<YouTube.Invocation>)

  const MissingUrl: string := "Missing logic"
  const FetchFailed: string := "Failed to fetch video info."

  /** `GET /api/info`. A missing or empty `url` is a 400 and launches nothing;
      otherwise the metadata fetch runs once, its failure is a 500 carrying the
      error's message, and its result is copied through without defaults. */
  function Get(url: Option<string>, cwd: string, run: Result<string, Thrown>, parsed: Result<RawInfo, Thrown>)
    : (h: Handled)
    ensures (url.None? || url.value == "") ==> h == Handled(InfoError(400, MissingUrl), None)
    ensures url.Some? && url.value != "" ==>
              h.invocation == Some(YouTube.RunYtDlp(url.value, YouTube.InfoFlags, cwd))
    ensures url.Some? && url.value != "" && run.Failure? ==>
              h.response == InfoError(500, MessageOr(run.error, FetchFailed))
    ensures url.Some? && url.value != "" && run.Success? && parsed.Failure? ==>
              h.response == InfoError(500, MessageOr(parsed.error, FetchFailed))
    ensures url.Some? && url.value != "" && run.Success? && parsed.Success? ==>
              var raw := parsed.value;
              h.response == InfoBody(raw.title, raw.thumbnail, raw.duration, MapFormats(raw.formats), raw.webpageUrl)
  {
    if url.None? || url.value == "" then Handled(InfoError(400, MissingUrl), None)
    else
      var fetched := YouTube.GetRawInfo(url.value, cwd, run, parsed);
      var response :=
        match fetched.result
        case Failure(e) => InfoError(500, MessageOr(e, FetchFailed))
        case Success(raw) =>
          InfoBody(raw.title, raw.thumbnail, raw.duration, MapFormats(raw.formats), raw.webpageUrl);
      Handled(response, Some(fetched.invocation))
  }
}

=== FILE: page.dfy ===
/** The browser page's own logic: reading an error for display, taking the
    file name from a download response, picking one stream per video height,
    building the download query and choosing the default subtitle language.
    Rendering, fetching and the browser download itself are not modelled. */
module Page {
  import opened Common
  import opened Providers

  // ---------------------------------------------------------------------------
  // Error text
  // ---------------------------------------------------------------------------

  /** `getErrorMessage`: only an `Error` instance with a non-empty message
      supplies the text; any other thrown value shows the fallback. */
  function GetErrorMessage(error: Thrown, fallback: string): (r: string)
    ensures error.ErrorInstance? && error.message != "" ==> r == error.message
    ensures !(error.ErrorInstance? && error.message != "") ==> r == fallback
  {
    if error.ErrorInstance? && error.message != "" then error.message else fallback
  }

  /** The page is stricter than the server's `error.message || fallback`:
      it agrees on `Error` instances and ignores a `message` property of any
      other thrown value. */
  lemma GetErrorMessageVersusMessageOr(error: Thrown, fallback: string)
    ensures error.ErrorInstance? ==> GetErrorMessage(error, fallback) == MessageOr(error, fallback)
    ensures error.NonError? ==> GetErrorMessage(error, fallback) == fallback
    ensures error.NonError? && error.messageProperty.Some? && error.messageProperty.value != "" ==>
              MessageOr(error, fallback) != GetErrorMessage(error, fallback) || error.messageProperty.value == fallback
  {
  }

  // ---------------------------------------------------------------------------
  // File name from Content-Disposition
  // ---------------------------------------------------------------------------

  /** The literal the pattern looks for, in lower case, quote included. */
  const FilenameKey: string := "filename=\""

  /** Case folding of the `i` flag for the ASCII letters of the pattern. */
  function FoldAscii(c: char): (r: char)
    ensures 'A' <= c <= 'Z' ==> 'a' <= r <= 'z' && r as int == c as int + 32
    ensures !('A' <= c <= 'Z') ==> r == c
  {
    if 'A' <= c <= 'Z' then (c as int + 32) as char else c
  }

  /** `filename="` matches at `i`, ignoring the case of letters. */
  predicate KeyAt(h: string, i: nat) {
    i + |FilenameKey| <= |h| &&
    forall k :: 0 <= k < |FilenameKey| ==> FoldAscii(h[i + k]) == FilenameKey[k]
  }

  /** The end of the run of non-quote characters starting at `k`. */
  function QuoteFreeEnd(h: string, k: nat): (j: nat)
    requires k <= |h|
    ensures k <= j <= |h|
    ensures forall m :: k <= m < j ==> h[m] != '"'
    ensures j < |h| ==> h[j] == '"'
    decreases |h| - k
  {
    if k == |h| || h[k] == '"' then k else QuoteFreeEnd(h, k + 1)
  }

  /** The capture of `/filename="([^"]+)"/i` when the match starts at `i`:
      one or more non-quote characters, then a closing quote. */
  function CaptureAt(h: string, i: nat): (r: Option<string>)
    ensures r.Some? ==> KeyAt(h, i) && r.value != [] && forall c :: c in r.value ==> c != '"'
    ensures r.Some? ==> OccursAt(h, r.value + "\"", i + |FilenameKey|)
  {
    if !KeyAt(h, i) || i + |FilenameKey| == |h| then None
    else
      var j := QuoteFreeEnd(h, i + |FilenameKey|);
      if i + |FilenameKey| < j < |h| then
        var r := h[i + |FilenameKey|..j];
        assert r + "\"" == h[i + |FilenameKey|..j + 1];
        Some(r)
      else None
  }

  /** The pattern matches at `i` exactly when the key is there, followed by
      a non-quote character and, somewhere later, a quote. */
  lemma CaptureAtIff(h: string, i: nat)
    ensures CaptureAt(h, i).Some? <==>
              KeyAt(h, i) && i + |FilenameKey| < |h| && h[i + |FilenameKey|] != '"' &&
              exists m :: i + |FilenameKey| < m < |h| && h[m] == '"'
  {
    if KeyAt(h, i) && i + |FilenameKey| < |h| && h[i + |FilenameKey|] != '"' {
      var j := QuoteFreeEnd(h, i + |FilenameKey|);
      if exists m :: i + |FilenameKey| < m < |h| && h[m] == '"' {
        var m :| i + |FilenameKey| < m < |h| && h[m] == '"';
        assert j <= m;
      }
    }
  }

  /** The first present value at or after `from`. */
  function FirstSome<T>(xs: seq<Option<T>>, from: nat): Option<T>
    requires from <= |xs|
    decreases |xs| - from
  {
    if from == |xs| then None
    else if xs[from].Some? then xs[from]
    else FirstSome(xs, from + 1)
  }

  /** `FirstSome` finds nothing exactly when every value from `from` on is
      absent, and otherwise returns the leftmost present value. */
  lemma {:induction false} FirstSomeIsLeftmost<T>(xs: seq<Option<T>>, from: nat)
    requires from <= |xs|
    ensures FirstSome(xs, from).None? <==> forall i :: from <= i < |xs| ==> xs[i].None?
    ensures FirstSome(xs, from).Some? ==>
              exists i :: from <= i < |xs| && xs[i] == FirstSome(xs, from) &&
                forall j :: from <= j < i ==> xs[j].None?
    decreases |xs| - from
  {
    if from < |xs| && xs[from].None? {
      FirstSomeIsLeftmost(xs, from + 1);
      if FirstSome(xs, from).Some? {
        var i :| from + 1 <= i < |xs| && xs[i] == FirstSome(xs, from) &&
                 forall j :: from + 1 <= j < i ==> xs[j].None?;
        assert forall j :: from <= j < i ==> xs[j].None?;
      }
    }
  }

  /** The capture at every start position of the header, end included. */
  function Captures(h: string): (cs: seq<Option<string>>)
    ensures |cs| == |h| + 1
    ensures forall i :: 0 <= i <= |h| ==> cs[i] == CaptureAt(h, i)
  {
    seq(|h| + 1, i requires 0 <= i <= |h| => CaptureAt(h, i))
  }

  /** `parseFilename`: the fallback without a header or without a match;
      otherwise the capture of the leftmost match, which is non-empty and
      free of quotes. */
  function ParseFilename(header: Option<string>, fallback: string): (r: string)
    ensures header.None? ==> r == fallback
    ensures header.Some? && (forall i: nat :: i <= |header.value| ==> CaptureAt(header.value, i).None?) ==>
              r == fallback
    ensures header.Some? && (exists i: nat :: i <= |header.value| && CaptureAt(header.value, i).Some?) ==>
              exists i: nat :: i <= |header.value| && CaptureAt(header.value, i) == Some(r) &&
                forall j: nat :: j < i ==> CaptureAt(header.value, j).None?
  {
    if header.None? || header.value == "" then fallback
    else
      var cs := Captures(header.value);
      FirstSomeIsLeftmost(cs, 0);
      match FirstSome(cs, 0)
      case None => fallback
      case Some(name) => name
  }

  // ---------------------------------------------------------------------------
  // One stream per height
  // ---------------------------------------------------------------------------

  const Mp4Container: string := "mp4"

  /** `format.hasVideo && format.height`: a video stream with a non-zero height. */
  predicate Eligible(f: VideoFormat) {
    f.hasVideo && f.height.Some? && f.height.value != 0
  }

  /** `f` is a candidate for height `h` (an MP4 one when `mp4Only`). */
  predicate Offers(f: VideoFormat, h: int, mp4Only: bool) {
    Eligible(f) && f.height.value == h && (mp4Only ==> f.container == Some(Mp4Container))
  }

  /** The first candidate for height `h` in list order. */
  function FirstOffer(fs: seq<VideoFormat>, h: int, mp4Only: bool): (r: Option<VideoFormat>)
    ensures r.None? <==> forall k :: 0 <= k < |fs| ==> !Offers(fs[k], h, mp4Only)
    ensures r.Some? ==>
              exists k :: 0 <= k < |fs| && fs[k] == r.value && Offers(fs[k], h, mp4Only) &&
                forall j :: 0 <= j < k ==> !Offers(fs[j], h, mp4Only)
  {
    if |fs| == 0 then None
    else if Offers(fs[0], h, mp4Only) then Some(fs[0])
    else
      var r := FirstOffer(fs[1..], h, mp4Only);
      if r.Some? then
        var k :| 0 <= k < |fs[1..]| && fs[1..][k] == r.value && Offers(fs[1..][k], h, mp4Only) &&
                 forall j :: 0 <= j < k ==> !Offers(fs[1..][j], h, mp4Only);
        assert fs[k + 1] == r.value;
        r
      else r
  }

  /** The stream the page keeps for height `h`: the first MP4 stream of that
      height if there is one, otherwise the first stream of that height. */
  function Choice(fs: seq<VideoFormat>, h: int): (r: Option<VideoFormat>)
    ensures r.None? <==> forall k :: 0 <= k < |fs| ==> !Offers(fs[k], h, false)
    ensures r.Some? ==> r.value in fs && Offers(r.value, h, false)
    ensures r.Some? && r.value.container != Some(Mp4Container) ==>
              forall k :: 0 <= k < |fs| ==> !Offers(fs[k], h, true)
  {
    var m := FirstOffer(fs, h, true);
    if m.Some? then m else FirstOffer(fs, h, false)
  }

  lemma {:induction false} FirstOfferSnoc(fs: seq<VideoFormat>, x: VideoFormat, h: int, mp4Only: bool)
    ensures FirstOffer(fs + [x], h, mp4Only) ==
              if FirstOffer(fs, h, mp4Only).Some? then FirstOffer(fs, h, mp4Only)
              else if Offers(x, h, mp4Only) then Some(x) else None
  {
    if |fs| > 0 {
      assert (fs + [x])[1..] == fs[1..] + [x];
      FirstOfferSnoc(fs[1..], x, h, mp4Only);
    }
  }

  /** One more stream changes the choice for its own height exactly as the
      page's update does: taken when the height had none, or when it is MP4
      and the kept one is not. */
  lemma ChoiceSnoc(fs: seq<VideoFormat>, x: VideoFormat, h: int)
    ensures Choice(fs + [x], h) ==
              if Offers(x, h, false) &&
                 (Choice(fs, h).None? ||
                  (x.container == Some(Mp4Container) && Choice(fs, h).value.container != Some(Mp4Container)))
              then Some(x) else Choice(fs, h)
  {
    FirstOfferSnoc(fs, x, h, true);
    FirstOfferSnoc(fs, x, h, false);
  }

  /** One step of the page's update keeps the map equal to the choices. */
  lemma KeepStep(fs: seq<VideoFormat>, x: VideoFormat, before: map<int, VideoFormat>, after: map<int, VideoFormat>)
    requires forall g :: MapGet(before, g) == Choice(fs, g)
    requires Eligible(x) && x.height.value !in before ==> after == before[x.height.value := x]
    requires Eligible(x) && x.height.value in before ==>
               after == if x.container == Some(Mp4Container) && before[x.height.value].container != Some(Mp4Container)
                        then before[x.height.value := x] else before
    requires !Eligible(x) ==> after == before
    ensures forall g :: MapGet(after, g) == Choice(fs + [x], g)
  {
    forall g
      ensures MapGet(after, g) == Choice(fs + [x], g)
    {
      ChoiceSnoc(fs, x, g);
      assert MapGet(before, g) == Choice(fs, g);
    }
  }

  /** `b.height || 0`, the sort key. */
  function HeightOf(f: VideoFormat): int {
    f.height.GetOr(0)
  }

  predicate DistinctHeights(fs: seq<VideoFormat>) {
    forall i, j :: 0 <= i < j < |fs| ==> HeightOf(fs[i]) != HeightOf(fs[j])
  }

  predicate DescendingByHeight(fs: seq<VideoFormat>) {
    forall i, j :: 0 <= i < j < |fs| ==> HeightOf(fs[i]) > HeightOf(fs[j])
  }

  function InsertByHeight(f: VideoFormat, fs: seq<VideoFormat>): (r: seq<VideoFormat>)
    requires DescendingByHeight(fs)
    requires forall g :: g in fs ==> HeightOf(g) != HeightOf(f)
    ensures DescendingByHeight(r)
    ensures multiset(r) == multiset(fs) + multiset{f}
  {
    if |fs| == 0 then [f]
    else if HeightOf(f) > HeightOf(fs[0]) then [f] + fs
    else
      assert fs[0] in fs;
      var rest := InsertByHeight(f, fs[1..]);
      assert fs == [fs[0]] + fs[1..];
      assert forall j :: 0 <= j < |rest| ==> HeightOf(fs[0]) > HeightOf(rest[j]) by {
        forall j | 0 <= j < |rest|
          ensures HeightOf(fs[0]) > HeightOf(rest[j])
        {
          assert rest[j] in multiset(rest);
          if rest[j] != f {
            assert rest[j] in multiset(fs[1..]);
            var m :| 0 <= m < |fs[1..]| && fs[1..][m] == rest[j];
            assert fs[m + 1] == rest[j];
          }
        }
      }
      [fs[0]] + rest
  }

  /** `sort((a, b) => (b.height || 0) - (a.height || 0))` on streams of
      distinct heights: strictly descending, and a permutation. */
  function SortByHeight(fs: seq<VideoFormat>): (r: seq<VideoFormat>)
    requires DistinctHeights(fs)
    ensures DescendingByHeight(r)
    ensures multiset(r) == multiset(fs)
  {
    if |fs| == 0 then []
    else
      var rest := SortByHeight(fs[1..]);
      assert fs == [fs[0]] + fs[1..];
      assert forall g :: g in rest ==> HeightOf(g) != HeightOf(fs[0]) by {
        forall g | g in rest
          ensures HeightOf(g) != HeightOf(fs[0])
        {
          assert g in multiset(fs[1..]);
          var m :| 0 <= m < |fs[1..]| && fs[1..][m] == g;
          assert fs[m + 1] == g;
        }
      }
      InsertByHeight(fs[0], rest)
  }

  /** `Array.from(m.values())`, given the keys in insertion order. */
  function ValuesInOrder(m: map<int, VideoFormat>, keys: seq<int>): (r: seq<VideoFormat>)
    requires forall k :: 0 <= k < |keys| ==> keys[k] in m
    ensures |r| == |keys|
    ensures forall k :: 0 <= k < |keys| ==> r[k] == m[keys[k]]
  {
    seq(|keys|, k requires 0 <= k < |keys| => m[keys[k]])
  }

  /** The kept streams, read from the map in key-insertion order, have
      distinct heights, are the choices for those heights, and cover every
      height that has a choice. */
  lemma ChosenValues(formats: seq<VideoFormat>, unique: map<int, VideoFormat>, heights: seq<int>, values: seq<VideoFormat>)
    requires forall h :: MapGet(unique, h) == Choice(formats, h)
    requires forall h :: h in unique <==> h in heights
    requires |values| == |heights|
    requires forall k :: 0 <= k < |values| ==> heights[k] in unique && values[k] == unique[heights[k]]
    requires forall k, l :: 0 <= k < l < |heights| ==> heights[k] != heights[l]
    ensures DistinctHeights(values)
    ensures forall v :: v in values ==> Eligible(v) && Choice(formats, v.height.value) == Some(v)
    ensures forall h :: Choice(formats, h).Some? ==> exists v :: v in values && v.height == Some(h)
  {
    forall k | 0 <= k < |values|
      ensures Choice(formats, heights[k]) == Some(values[k]) && HeightOf(values[k]) == heights[k]
    {
      assert MapGet(unique, heights[k]) == Choice(formats, heights[k]);
    }
    forall h | Choice(formats, h).Some?
      ensures exists v :: v in values && v.height == Some(h)
    {
      assert MapGet(unique, h).Some?;
      var k :| 0 <= k < |heights| && heights[k] == h;
      assert values[k] in values;
    }
  }

  /** Sorting the kept streams keeps them the choices, and keeps every
      height that has one. */
  lemma SortedChoices(formats: seq<VideoFormat>, values: seq<VideoFormat>, sorted: seq<VideoFormat>)
    requires multiset(sorted) == multiset(values)
    requires forall v :: v in values ==> Eligible(v) && Choice(formats, v.height.value) == Some(v)
    requires forall h :: Choice(formats, h).Some? ==> exists v :: v in values && v.height == Some(h)
    ensures forall v :: v in sorted ==> v in formats
    ensures forall v :: v in sorted ==> Eligible(v) && Choice(formats, v.height.value) == Some(v)
    ensures forall h :: Choice(formats, h).Some? ==> exists v :: v in sorted && v.height == Some(h)
  {
    assert forall v :: v in sorted <==> v in values by {
      forall v ensures v in sorted <==> v in values {
        assert v in sorted <==> v in multiset(sorted);
        assert v in values <==> v in multiset(values);
      }
    }
    forall h | Choice(formats, h).Some?
      ensures exists v :: v in sorted && v.height == Some(h)
    {
      var v :| v in values && v.height == Some(h);
      assert v in sorted;
    }
  }

  /** `processFormats`: keep, for every height, the first MP4 stream of that
      height or else its first stream; list the kept streams tallest first;
      preselect the tallest one's identifier, leaving the selection as it
      was when nothing qualifies. */
  method ProcessFormats(formats: seq<VideoFormat>, selectedQuality: string)
    returns (resolutions: seq<VideoFormat>, quality: string)
    ensures DescendingByHeight(resolutions)
    ensures forall v :: v in resolutions ==> v in formats
    ensures forall v :: v in resolutions ==> Eligible(v) && Choice(formats, v.height.value) == Some(v)
    ensures forall h :: Choice(formats, h).Some? ==> exists v :: v in resolutions && v.height == Some(h)
    ensures quality == if |resolutions| > 0 then resolutions[0].itag else selectedQuality
  {
    var unique: map<int, VideoFormat> := map[];
    var heights: seq<int> := [];
    var i := 0;
    while i < |formats|
      invariant 0 <= i <= |formats|
      invariant forall h :: MapGet(unique, h) == Choice(formats[..i], h)
      invariant forall h :: h in unique <==> h in heights
      invariant forall k, l :: 0 <= k < l < |heights| ==> heights[k] != heights[l]
    {
      var format := formats[i];
      var before := unique;
      if format.hasVideo && format.height.Some? && format.height.value != 0 {
        var h := format.height.value;
        var existing := MapGet(unique, h);
        if existing.None? {
          unique := unique[h := format];
          heights := heights + [h];
        } else if format.container == Some(Mp4Container) && existing.value.container != Some(Mp4Container) {
          unique := unique[h := format];
        }
      }
      assert formats[..i + 1] == formats[..i] + [format];
      KeepStep(formats[..i], format, before, unique);
      i := i + 1;
    }
    assert formats[..i] == formats;
    assert forall k :: 0 <= k < |heights| ==> heights[k] in unique by {
      forall k | 0 <= k < |heights| ensures heights[k] in unique {
        assert heights[k] in heights;
      }
    }
    var values := ValuesInOrder(unique, heights);
    ChosenValues(formats, unique, heights, values);
    resolutions := SortByHeight(values);
    SortedChoices(formats, values, resolutions);
    quality := selectedQuality;
    if |resolutions| > 0 {
      quality := resolutions[0].itag;
    }
  }

  // ---------------------------------------------------------------------------
  // The download query
  // ---------------------------------------------------------------------------

  datatype Mode = Mp4Mode | Mp3Mode
  datatype SubtitleMode = NoSubtitles | EmbeddedSubtitles | ExternalSubtitles
  datatype Artifact = VideoArtifact | SubtitleArtifact

  function ModeName(m: Mode): string {
    match m
    case Mp4Mode => "mp4"
    case Mp3Mode => "mp3"
  }

  function SubtitleModeName(m: SubtitleMode): string {
    match m
    case NoSubtitles => "none"
    case EmbeddedSubtitles => "embedded"
    case ExternalSubtitles => "external"
  }

  function ArtifactName(a: Artifact): string {
    match a
    case VideoArtifact => "video"
    case SubtitleArtifact => "subtitle"
  }

  /** Query parameters in the order they are written. */
  type Params = seq<(string, string)>

  /** `params.get(key)`: the first value written under `key`. */
  function ParamGet(ps: Params, key: string): (r: Option<string>)
    ensures r.None? <==> forall k :: 0 <= k < |ps| ==> ps[k].0 != key
    ensures r.Some? ==>
              exists k :: 0 <= k < |ps| && ps[k] == (key, r.value) && forall j :: 0 <= j < k ==> ps[j].0 != key
  {
    if |ps| == 0 then None
    else if ps[0].0 == key then Some(ps[0].1)
    else
      var r := ParamGet(ps[1..], key);
      if r.Some? then
        var k :| 0 <= k < |ps[1..]| && ps[1..][k] == (key, r.value) && forall j :: 0 <= j < k ==> ps[1..][j].0 != key;
        assert ps[k + 1] == (key, r.value);
        r
      else r
  }

  /** The first entry under `key` decides what `get` returns. */
  lemma {:induction false} ParamGetAt(ps: Params, k: nat, key: string)
    requires k < |ps| && ps[k].0 == key
    requires forall j :: 0 <= j < k ==> ps[j].0 != key
    ensures ParamGet(ps, key) == Some(ps[k].1)
  {
    if k > 0 {
      ParamGetAt(ps[1..], k - 1, key);
    }
  }

  /** The parameters every query carries, in the order they are written. */
  function FixedParams(url: string, mode: Mode, subtitleMode: SubtitleMode, artifact: Artifact): (ps: Params)
    ensures |ps| == 4
    ensures ps[0] == ("url", url) && ps[1] == ("type", ModeName(mode))
    ensures ps[2] == ("subtitleMode", SubtitleModeName(subtitleMode)) && ps[3] == ("artifact", ArtifactName(artifact))
  {
    [("url", url), ("type", ModeName(mode)),
     ("subtitleMode", SubtitleModeName(subtitleMode)), ("artifact", ArtifactName(artifact))]
  }

  /** The conditionally appended parameters. */
  function OptionalParams(mode: Mode, subtitleMode: SubtitleMode, selectedQuality: string,
                          selectedSubtitleLang: string): (ps: Params)
    ensures forall k :: 0 <= k < |ps| ==> ps[k].0 == "itag" || ps[k].0 == "subtitleLang"
  {
    (if mode == Mp4Mode && selectedQuality != "" then [("itag", selectedQuality)] else []) +
    (if mode == Mp4Mode && subtitleMode != NoSubtitles && selectedSubtitleLang != "" then
       [("subtitleLang", selectedSubtitleLang)]
     else [])
  }

  /** `buildParams`: nothing without loaded metadata; otherwise the URL, the
      mode, the subtitle mode and the artifact, then the selected quality
      only for MP4 with a selection, then the subtitle language only for MP4
      with subtitles on and a language chosen. What each key reads back is
      stated by the three lemmas below. */
  function BuildParams(info: Option<VideoInfo>, mode: Mode, subtitleMode: SubtitleMode,
                       selectedQuality: string, selectedSubtitleLang: string, artifact: Artifact)
    : (r: Option<Params>)
    ensures r.None? <==> info.None?
    ensures r.Some? ==> 4 <= |r.value| <= 6
  {
    if info.None? then None
    else
      Some(FixedParams(info.value.url, mode, subtitleMode, artifact) +
           OptionalParams(mode, subtitleMode, selectedQuality, selectedSubtitleLang))
  }

  /** The four fixed parameters always read back as the page state. */
  lemma BuildParamsFixedKeys(info: Option<VideoInfo>, mode: Mode, subtitleMode: SubtitleMode,
                             selectedQuality: string, selectedSubtitleLang: string, artifact: Artifact)
    requires info.Some?
    ensures var ps := BuildParams(info, mode, subtitleMode, selectedQuality, selectedSubtitleLang, artifact).value;
      && ParamGet(ps, "url") == Some(info.value.url)
      && ParamGet(ps, "type") == Some(ModeName(mode))
      && ParamGet(ps, "subtitleMode") == Some(SubtitleModeName(subtitleMode))
      && ParamGet(ps, "artifact") == Some(ArtifactName(artifact))
  {
    var ps := BuildParams(info, mode, subtitleMode, selectedQuality, selectedSubtitleLang, artifact).value;
    var fixed := FixedParams(info.value.url, mode, subtitleMode, artifact);
    assert ps == fixed + OptionalParams(mode, subtitleMode, selectedQuality, selectedSubtitleLang);
    ParamGetAt(ps, 0, "url");
    ParamGetAt(ps, 1, "type");
    ParamGetAt(ps, 2, "subtitleMode");
    ParamGetAt(ps, 3, "artifact");
  }

  /** The quality is sent exactly for MP4 with a non-empty selection. */
  lemma BuildParamsItag(info: Option<VideoInfo>, mode: Mode, subtitleMode: SubtitleMode,
                        selectedQuality: string, selectedSubtitleLang: string, artifact: Artifact)
    requires info.Some?
    ensures var ps := BuildParams(info, mode, subtitleMode, selectedQuality, selectedSubtitleLang, artifact).value;
      ParamGet(ps, "itag") == if mode == Mp4Mode && selectedQuality != "" then Some(selectedQuality) else None
  {
    var ps := BuildParams(info, mode, subtitleMode, selectedQuality, selectedSubtitleLang, artifact).value;
    if mode == Mp4Mode && selectedQuality != "" {
      ParamGetAt(ps, 4, "itag");
    } else {
      assert forall k :: 0 <= k < |ps| ==> ps[k].0 != "itag";
    }
  }

  /** The subtitle language is sent exactly for MP4 with subtitles on and a
      non-empty language. */
  lemma BuildParamsSubtitleLang(info: Option<VideoInfo>, mode: Mode, subtitleMode: SubtitleMode,
                                selectedQuality: string, selectedSubtitleLang: string, artifact: Artifact)
    requires info.Some?
    ensures var ps := BuildParams(info, mode, subtitleMode, selectedQuality, selectedSubtitleLang, artifact).value;
      ParamGet(ps, "subtitleLang") ==
        if mode == Mp4Mode && subtitleMode != NoSubtitles && selectedSubtitleLang != "" then Some(selectedSubtitleLang)
        else None
  {
    var ps := BuildParams(info, mode, subtitleMode, selectedQuality, selectedSubtitleLang, artifact).value;
    if mode == Mp4Mode && subtitleMode != NoSubtitles && selectedSubtitleLang != "" {
      ParamGetAt(ps, |ps| - 1, "subtitleLang");
    } else {
      assert forall k :: 0 <= k < |ps| ==> ps[k].0 != "subtitleLang";
    }
  }

  // ---------------------------------------------------------------------------
  // Default subtitle language
  // ---------------------------------------------------------------------------

  function Langs(ts: seq<SubtitleTrack>): (r: seq<string>)
    ensures |r| == |ts|
    ensures forall k :: 0 <= k < |ts| ==> r[k] == ts[k].lang
  {
    seq(|ts|, k requires 0 <= k < |ts| => ts[k].lang)
  }

  /** The subtitle language preselected after metadata loads: none without
      tracks; otherwise the first track whose code starts with `en`, and
      failing that the first track. */
  function DefaultSubtitleLang(subtitles: Option<seq<SubtitleTrack>>): (r: string)
    ensures (subtitles.None? || |subtitles.value| == 0) ==> r == ""
    ensures subtitles.Some? && |subtitles.value| > 0 ==>
              var ts := subtitles.value;
              || (exists k :: 0 <= k < |ts| && r == ts[k].lang && StartsWith(r, "en") &&
                    forall j :: 0 <= j < k ==> !StartsWith(ts[j].lang, "en"))
              || (r == ts[0].lang && forall j :: 0 <= j < |ts| ==> !StartsWith(ts[j].lang, "en"))
  {
    if subtitles.None? || |subtitles.value| == 0 then ""
    else
      var ts := subtitles.value;
      match FirstWithPrefix(Langs(ts), "en")
      case Some(k) => ts[k].lang
      case None => ts[0].lang
  }
}

=== FILE: providers.dfy ===
/** Provider classification and metadata normalisation: which extraction
    strategy a URL gets, and how the extractor's raw metadata becomes the
    `VideoInfo` the page renders (formats one-to-one, caption tables merged
    into one track per language, manual beating automatic). */
module Providers {
  import opened Common
  import opened Extractor

  // ---------------------------------------------------------------------------
  // Provider resolution
  // ---------------------------------------------------------------------------

  const HianimeId: string := "hianime"
  const GenericId: string := "yt-dlp-generic"

  /** The top-level domains the hianime host pattern accepts. */
  const HianimeTlds: seq<string> := ["to", "is", "nz", "bz", "pe", "cx", "gs", "do"]

  /** The pattern `hianime(?:z)?\.(?:to|is|nz|bz|pe|cx|gs|do)` matches at position `i`. */
  ghost predicate HianimeAt(url: string, i: int) {
    exists tld :: tld in HianimeTlds &&
      (OccursAt(url, "hianime." + tld, i) || OccursAt(url, "hianimez." + tld, i))
  }

  /** The unanchored pattern matches somewhere in `url`. */
  ghost predicate HianimePattern(url: string) {
    exists i :: 0 <= i <= |url| && HianimeAt(url, i)
  }

  /** A dot followed by one of the accepted domains starts at `j`. */
  predicate TldAt(url: string, j: int)
    requires 0 <= j
  {
    j + 3 <= |url| && url[j] == '.' && url[j + 1..j + 3] in HianimeTlds
  }

  /** One attempt of the pattern at position `i`, character by character:
      the literal `hianime`, then the optional `z` tried first, then a domain. */
  predicate MatchHere(url: string, i: nat) {
    OccursAt(url, "hianime", i) &&
      ((i + 7 < |url| && url[i + 7] == 'z' && TldAt(url, i + 8)) || TldAt(url, i + 7))
  }

  /** `hianime.` + `tld` at `i`, spelled out position by position. */
  lemma PlainHostAt(url: string, i: nat, tld: string)
    requires |tld| == 2
    ensures OccursAt(url, "hianime." + tld, i) <==>
              OccursAt(url, "hianime", i) && i + 10 <= |url| && url[i + 7] == '.' && url[i + 8..i + 10] == tld
  {
    var pat := "hianime." + tld;
    assert pat[..7] == "hianime" && pat[7] == '.' && pat[8..] == tld;
    if i + 10 <= |url| {
      var w := url[i..i + 10];
      assert w[..7] == url[i..i + 7] && w[7] == url[i + 7] && w[8..] == url[i + 8..i + 10];
      if w == pat {
        assert w[..7] == pat[..7] && w[8..] == pat[8..];
      }
      if url[i..i + 7] == "hianime" && url[i + 7] == '.' && url[i + 8..i + 10] == tld {
        assert w == w[..7] + [w[7]] + w[8..];
        assert pat == pat[..7] + [pat[7]] + pat[8..];
      }
    }
  }

  /** `hianimez.` + `tld` at `i`, spelled out position by position. */
  lemma ZHostAt(url: string, i: nat, tld: string)
    requires |tld| == 2
    ensures OccursAt(url, "hianimez." + tld, i) <==>
              OccursAt(url, "hianime", i) && i + 11 <= |url| && url[i + 7] == 'z' && url[i + 8] == '.' &&
              url[i + 9..i + 11] == tld
  {
    var pat := "hianimez." + tld;
    assert pat[..7] == "hianime" && pat[7] == 'z' && pat[8] == '.' && pat[9..] == tld;
    if i + 11 <= |url| {
      var w := url[i..i + 11];
      assert w[..7] == url[i..i + 7] && w[7] == url[i + 7] && w[8] == url[i + 8] && w[9..] == url[i + 9..i + 11];
      if w == pat {
        assert w[..7] == pat[..7] && w[9..] == pat[9..];
      }
      if url[i..i + 7] == "hianime" && url[i + 7] == 'z' && url[i + 8] == '.' && url[i + 9..i + 11] == tld {
        assert w == w[..7] + [w[7], w[8]] + w[9..];
        assert pat == pat[..7] + [pat[7], pat[8]] + pat[9..];
      }
    }
  }

  lemma MatchHereIsPattern(url: string, i: nat)
    ensures MatchHere(url, i) <==> HianimeAt(url, i)
  {
    assert forall tld :: tld in HianimeTlds ==> |tld| == 2;
    if MatchHere(url, i) {
      if i + 7 < |url| && url[i + 7] == 'z' && TldAt(url, i + 8) {
        var tld := url[i + 9..i + 11];
        ZHostAt(url, i, tld);
      } else {
        var tld := url[i + 8..i + 10];
        PlainHostAt(url, i, tld);
      }
    }
    if HianimeAt(url, i) {
      var tld :| tld in HianimeTlds &&
        (OccursAt(url, "hianime." + tld, i) || OccursAt(url, "hianimez." + tld, i));
      PlainHostAt(url, i, tld);
      ZHostAt(url, i, tld);
    }
  }

  /** The regular-expression search: try every start position from `from` on. */
  function SearchHianime(url: string, from: nat): (found: bool)
    requires from <= |url|
    ensures found <==> exists i :: from <= i <= |url| && HianimeAt(url, i)
    decreases |url| - from
  {
    MatchHereIsPattern(url, from);
    if MatchHere(url, from) then true
    else if from == |url| then false
    else SearchHianime(url, from + 1)
  }

  /** A provider's `match`: the provider id when the URL is its own, else null. */
  datatype Matcher = HianimeMatcher | GenericMatcher

  /** The ordered matcher list; the generic matcher accepts every URL. */
  const Matchers: seq<Matcher> := [HianimeMatcher, GenericMatcher]

  function Match(m: Matcher, url: string): (r: Option<string>)
    ensures m.GenericMatcher? ==> r == Some(GenericId)
    ensures m.HianimeMatcher? ==> (r.Some? <==> HianimePattern(url)) && (r.Some? ==> r.value == HianimeId)
  {
    match m
    case HianimeMatcher => if SearchHianime(url, 0) then Some(HianimeId) else None
    case GenericMatcher => Some(GenericId)
  }

  /** The first matcher that accepts `url` names its provider; the result is
      always one of the two ids, `hianime` exactly for the hianime host pattern. */
  method ResolveProvider(url: string) returns (id: string)
    ensures id == HianimeId <==> HianimePattern(url)
    ensures id == GenericId <==> !HianimePattern(url)
  {
    assert Matchers[0] == HianimeMatcher && Matchers[1] == GenericMatcher;
    for i := 0 to |Matchers|
      invariant forall j :: 0 <= j < i ==> Match(Matchers[j], url).None?
    {
      var m := Match(Matchers[i], url);
      if m.Some? {
        return m.value;
      }
    }
    return GenericId;
  }

  // ---------------------------------------------------------------------------
  // Format normalisation
  // ---------------------------------------------------------------------------

  /** One stream variant as the page sees it. */
  datatype VideoFormat = VideoFormat(
    itag: string,
    url: string,
    mimeType: Option<string>,
    qualityLabel: Option<string>,
    bitrate: Option<int>,
    width: Option<int>,
    height: Option<int>,
    container: Option<string>,
    hasVideo: bool,
    hasAudio: bool,
    contentLength: Option<string>,
    language: Option<string>)

  /** One raw format record mapped field by field, with the identifier and the
      size turned into strings. */
  function NormalizeFormat(f: RawFormat): (r: VideoFormat)
    ensures f.formatId.None? || f.formatId == Some(Null) ==> r.itag == ""
    ensures f.formatId.Some? && !f.formatId.value.Null? ==> r.itag == ScalarToString(f.formatId.value)
    ensures r.qualityLabel == QualityLabel(f)
    ensures !r.hasVideo <==> f.vcodec == Some(NoCodec)
    ensures !r.hasAudio <==> f.acodec == Some(NoCodec)
    ensures f.vcodec.None? ==> r.hasVideo
    ensures f.acodec.None? ==> r.hasAudio
    ensures r.contentLength.None? <==> f.filesize.None?
    ensures f.filesize.Some? ==> r.contentLength == Some(ScalarToString(f.filesize.value))
    ensures f.filesize == Some(Null) ==> r.contentLength == Some("null")
    ensures r.url == f.url.GetOr("")
    ensures r.height == f.height && r.width == f.width && r.bitrate == f.tbr
    ensures r.container == f.ext && r.mimeType == f.ext && r.language == f.language
  {
    VideoFormat(
      itag := ScalarToString(Coalesce(f.formatId, Text(""))),
      url := f.url.GetOr(""),
      mimeType := f.ext,
      qualityLabel := QualityLabel(f),
      bitrate := f.tbr,
      width := f.width,
      height := f.height,
      container := f.ext,
      hasVideo := CodecPresent(f.vcodec),
      hasAudio := CodecPresent(f.acodec),
      contentLength := if f.filesize.None? then None else Some(ScalarToString(f.filesize.value)),
      language := f.language)
  }

  /** `formats.map(...)`: same length, element `i` normalised from input `i`. */
  function NormalizeFormats(formats: seq<RawFormat>): (r: seq<VideoFormat>)
    ensures |r| == |formats|
    ensures forall i :: 0 <= i < |r| ==> r[i] == NormalizeFormat(formats[i])
  {
    seq(|formats|, i requires 0 <= i < |formats| => NormalizeFormat(formats[i]))
  }

  // ---------------------------------------------------------------------------
  // Subtitle tracks
  // ---------------------------------------------------------------------------

  datatype Source = Auto | Manual

  /** A subtitle track; `displayName` is the track's `label` (a reserved word in Dafny). */
  datatype SubtitleTrack = SubtitleTrack(lang: string, displayName: string, source: Source, ext: Option<string>)

  /** The track built from the first entry listed for a language: its label is
      the entry's non-empty name, else the language code. */
  function MakeTrack(lang: string, entry: RawSubtitleEntry, source: Source): (t: SubtitleTrack)
    ensures t.lang == lang && t.source == source && t.ext == entry.ext
    ensures entry.name.Some? && entry.name.value != "" ==> t.displayName == entry.name.value
    ensures (entry.name.None? || entry.name == Some("")) ==> t.displayName == lang
  {
    SubtitleTrack(lang, if entry.name.Some? && entry.name.value != "" then entry.name.value else lang, source, entry.ext)
  }

  /** An absent caption table lists nothing. */
  function CaptionList(captions: Option<Captions>): Captions {
    captions.GetOr([])
  }

  /** The first entry of the first non-empty list given for `lang`, if any. */
  function FirstEntry(caps: Captions, lang: string): (r: Option<RawSubtitleEntry>)
    ensures r.None? <==> forall k :: 0 <= k < |caps| && caps[k].0 == lang ==> |caps[k].1| == 0
    ensures r.Some? ==> exists k :: 0 <= k < |caps| && caps[k].0 == lang && |caps[k].1| > 0 &&
                          r.value == caps[k].1[0] &&
                          forall j :: 0 <= j < k && caps[j].0 == lang ==> |caps[j].1| == 0
  {
    if |caps| == 0 then None
    else if caps[0].0 == lang && |caps[0].1| > 0 then Some(caps[0].1[0])
    else
      var r := FirstEntry(caps[1..], lang);
      assert forall k :: 1 <= k < |caps| ==> caps[k] == caps[1..][k - 1];
      if r.Some? then
        ghost var k :| 0 <= k < |caps[1..]| && caps[1..][k].0 == lang && |caps[1..][k].1| > 0 &&
                      r.value == caps[1..][k].1[0] &&
                      forall j :: 0 <= j < k && caps[1..][j].0 == lang ==> |caps[1..][j].1| == 0;
        assert caps[k + 1] == caps[1..][k];
        r
      else r
  }

  /** The reference for the merge: the manual table's first entry for `lang`
      if it has one, else the automatic table's, else no track. */
  function ExpectedTrack(auto: Option<Captions>, manual: Option<Captions>, lang: string): (r: Option<SubtitleTrack>)
    ensures r.Some? ==> r.value.lang == lang
    ensures r.Some? ==> (r.value.source == Manual <==> FirstEntry(CaptionList(manual), lang).Some?)
  {
    match FirstEntry(CaptionList(manual), lang)
    case Some(e) => Some(MakeTrack(lang, e, Manual))
    case None =>
      match FirstEntry(CaptionList(auto), lang)
      case Some(e) => Some(MakeTrack(lang, e, Auto))
      case None => None
  }

  /** The contents of the language-keyed `Map`: the tracks by key, and the keys
      in insertion order (the order `map.values()` enumerates them in). */
  datatype TableState = TableState(tracks: map<string, SubtitleTrack>, order: seq<string>)

  /** The `Map`'s own shape (each key once, in the order) and the merge's
      invariant that a track is stored under its own language. */
  ghost predicate ValidState(st: TableState) {
    && (forall i, j :: 0 <= i < j < |st.order| ==> st.order[i] != st.order[j])
    && (forall k :: k in st.tracks <==> k in st.order)
    && (forall k :: k in st.tracks ==> st.tracks[k].lang == k)
  }

  /** Whether an incoming track from `source` takes the place of `current`:
      nothing is there yet, or an automatic track meets a manual one. */
  predicate Replaces(current: Option<SubtitleTrack>, source: Source) {
    current.None? || (current.value.source == Auto && source == Manual)
  }

  /** The effect of one `[lang, entries]` pair on the table (`Map.set` keeps an
      existing key's position). */
  function Offer(st: TableState, lang: string, entries: seq<RawSubtitleEntry>, source: Source): TableState {
    if |entries| == 0 || !Replaces(MapGet(st.tracks, lang), source) then st
    else
      TableState(st.tracks[lang := MakeTrack(lang, entries[0], source)],
                 if lang in st.tracks then st.order else st.order + [lang])
  }

  lemma OfferValid(st: TableState, lang: string, entries: seq<RawSubtitleEntry>, source: Source)
    requires ValidState(st)
    ensures ValidState(Offer(st, lang, entries, source))
  {
  }

  /** The effect of a whole caption table, pair by pair. */
  function CollectSpec(st: TableState, caps: Captions, source: Source): TableState
    decreases |caps|
  {
    if |caps| == 0 then st
    else CollectSpec(Offer(st, caps[0].0, caps[0].1, source), caps[1..], source)
  }

  /** What one caption table does to the track stored for `lang`. */
  function After(current: Option<SubtitleTrack>, first: Option<RawSubtitleEntry>, source: Source, lang: string): Option<SubtitleTrack> {
    if Replaces(current, source) && first.Some? then Some(MakeTrack(lang, first.value, source)) else current
  }

  /** A table from `source` changes the track for `lang` at most once: to the
      track built from its first non-empty entry list for `lang`, and only when
      that track replaces what was there. */
  lemma {:induction false} CollectAt(st: TableState, caps: Captions, source: Source, lang: string)
    ensures MapGet(CollectSpec(st, caps, source).tracks, lang) ==
            After(MapGet(st.tracks, lang), FirstEntry(caps, lang), source, lang)
    decreases |caps|
  {
    if |caps| > 0 {
      var next := Offer(st, caps[0].0, caps[0].1, source);
      CollectAt(next, caps[1..], source, lang);
      if caps[0].0 == lang && |caps[0].1| > 0 {
        assert FirstEntry(caps, lang) == Some(caps[0].1[0]);
      } else {
        assert FirstEntry(caps, lang) == FirstEntry(caps[1..], lang);
        assert MapGet(next.tracks, lang) == MapGet(st.tracks, lang);
      }
    }
  }

  /** A manual track is never replaced. */
  lemma ManualNeverReplaced(st: TableState, caps: Captions, source: Source, lang: string)
    requires lang in st.tracks && st.tracks[lang].source == Manual
    ensures lang in CollectSpec(st, caps, source).tracks
    ensures CollectSpec(st, caps, source).tracks[lang] == st.tracks[lang]
  {
    CollectAt(st, caps, source, lang);
  }

  /** An automatic track is never replaced by a later automatic entry. */
  lemma AutoKeptAgainstAuto(st: TableState, caps: Captions, lang: string)
    requires lang in st.tracks
    ensures lang in CollectSpec(st, caps, Auto).tracks
    ensures CollectSpec(st, caps, Auto).tracks[lang] == st.tracks[lang]
  {
    CollectAt(st, caps, Auto, lang);
  }

  /** A manual entry replaces an automatic track for the same language. */
  lemma ManualReplacesAuto(st: TableState, caps: Captions, lang: string)
    requires lang in st.tracks && st.tracks[lang].source == Auto
    requires FirstEntry(caps, lang).Some?
    ensures lang in CollectSpec(st, caps, Manual).tracks
    ensures CollectSpec(st, caps, Manual).tracks[lang] == MakeTrack(lang, FirstEntry(caps, lang).value, Manual)
  {
    CollectAt(st, caps, Manual, lang);
  }

  lemma {:induction false} CollectValid(st: TableState, caps: Captions, source: Source)
    requires ValidState(st)
    ensures ValidState(CollectSpec(st, caps, source))
    decreases |caps|
  {
    if |caps| > 0 {
      OfferValid(st, caps[0].0, caps[0].1, source);
      CollectValid(Offer(st, caps[0].0, caps[0].1, source), caps[1..], source);
    }
  }

  /** The table after the automatic then the manual captions have been collected. */
  function Merged(auto: Option<Captions>, manual: Option<Captions>): TableState {
    CollectSpec(CollectSpec(TableState(map[], []), CaptionList(auto), Auto), CaptionList(manual), Manual)
  }

  /** The two-pass merge agrees with the reference: per language, the manual
      table's first entry, else the automatic table's, else nothing. */
  lemma MergedIsExpected(auto: Option<Captions>, manual: Option<Captions>, lang: string)
    ensures ValidState(Merged(auto, manual))
    ensures MapGet(Merged(auto, manual).tracks, lang) == ExpectedTrack(auto, manual, lang)
  {
    var empty := TableState(map[], []);
    var afterAuto := CollectSpec(empty, CaptionList(auto), Auto);
    CollectAt(empty, CaptionList(auto), Auto, lang);
    CollectAt(afterAuto, CaptionList(manual), Manual, lang);
    CollectValid(empty, CaptionList(auto), Auto);
    CollectValid(afterAuto, CaptionList(manual), Manual);
  }

  /** The shared, mutable `Map<string, SubtitleTrack>` that two collection
      passes fill in place. */
  class SubtitleTable {
    var tracks: map<string, SubtitleTrack>
    var order: seq<string>

    function State(): TableState
      reads this
    {
      TableState(tracks, order)
    }

    ghost predicate Valid()
      reads this
    {
      ValidState(State())
    }

    constructor ()
      ensures Valid() && tracks == map[] && order == []
    {
      tracks := map[];
      order := [];
    }

    /** `collectSubtitleTracks`: offers the first entry of every non-empty
        language list in `captions`, tagged with `source`. */
    method Collect(captions: Option<Captions>, source: Source)
      requires Valid()
      modifies this
      ensures Valid()
      ensures State() == CollectSpec(old(State()), CaptionList(captions), source)
    {
      if captions.None? {
        return;
      }
      var caps := captions.value;
      for i := 0 to |caps|
        invariant Valid()
        invariant CollectSpec(State(), caps[i..], source) == CollectSpec(old(State()), caps, source)
      {
        assert caps[i..][1..] == caps[i + 1..];
        ghost var before := State();
        var lang, entries := caps[i].0, caps[i].1;
        if |entries| == 0 {
          continue;
        }
        var current := if lang in tracks then Some(tracks[lang]) else None;
        var entry := entries[0];
        var displayName := if entry.name.Some? && entry.name.value != "" then entry.name.value else lang;
        var ext := entry.ext;
        if current.None? || (current.value.source == Auto && source == Manual) {
          if lang !in tracks {
            order := order + [lang];
          }
          tracks := tracks[lang := SubtitleTrack(lang, displayName, source, ext)];
        }
        assert State() == Offer(before, lang, entries, source);
        OfferValid(before, lang, entries, source);
      }
    }

    /** `Array.from(map.values())`: the tracks in key insertion order. */
    function Values(): (vs: seq<SubtitleTrack>)
      reads this
      requires Valid()
      ensures |vs| == |order|
      ensures forall i :: 0 <= i < |vs| ==> vs[i] == tracks[order[i]]
    {
      seq(|order|, i reads this requires 0 <= i < |order| && Valid() => tracks[order[i]])
    }
  }

  // ---------------------------------------------------------------------------
  // Sorting by language (`localeCompare`, taken as ordinal order)
  // ---------------------------------------------------------------------------

  predicate DistinctLangs(ts: seq<SubtitleTrack>) {
    forall i, j :: 0 <= i < j < |ts| ==> ts[i].lang != ts[j].lang
  }

  predicate SortedByLang(ts: seq<SubtitleTrack>) {
    forall i, j :: 0 <= i < j < |ts| ==> LexLess(ts[i].lang, ts[j].lang)
  }

  function InsertByLang(t: SubtitleTrack, ts: seq<SubtitleTrack>): (r: seq<SubtitleTrack>)
    requires SortedByLang(ts)
    requires forall u :: u in ts ==> u.lang != t.lang
    ensures SortedByLang(r)
    ensures |r| == |ts| + 1
    ensures forall u :: u in r <==> u == t || u in ts
  {
    if |ts| == 0 then [t]
    else if LexLess(t.lang, ts[0].lang) then
      assert forall j :: 0 < j < |ts| ==> LexLess(t.lang, ts[j].lang) by {
        forall j | 0 < j < |ts| ensures LexLess(t.lang, ts[j].lang) {
          LexLessTransitive(t.lang, ts[0].lang, ts[j].lang);
        }
      }
      [t] + ts
    else
      LexLessTotal(t.lang, ts[0].lang);
      var rest := InsertByLang(t, ts[1..]);
      assert forall u :: u in ts[1..] ==> LexLess(ts[0].lang, u.lang);
      [ts[0]] + rest
  }

  /** Distinct language codes come out strictly ascending, with the same tracks. */
  function SortByLang(ts: seq<SubtitleTrack>): (r: seq<SubtitleTrack>)
    requires DistinctLangs(ts)
    ensures SortedByLang(r)
    ensures |r| == |ts|
    ensures forall u :: u in r <==> u in ts
  {
    if |ts| == 0 then []
    else
      var rest := SortByLang(ts[1..]);
      assert forall u :: u in ts[1..] ==> u.lang != ts[0].lang;
      InsertByLang(ts[0], rest)
  }

  // ---------------------------------------------------------------------------
  // The assembled metadata
  // ---------------------------------------------------------------------------

  /** The values of the merged table, in any order, are exactly the expected
      tracks, one per language. */
  lemma MergedValues(auto: Option<Captions>, manual: Option<Captions>, st: TableState, values: seq<SubtitleTrack>)
    requires st == Merged(auto, manual)
    requires |values| == |st.order|
    requires forall i :: 0 <= i < |values| ==> st.order[i] in st.tracks && values[i] == st.tracks[st.order[i]]
    ensures DistinctLangs(values)
    ensures forall t :: t in values ==> ExpectedTrack(auto, manual, t.lang) == Some(t)
    ensures forall lang :: ExpectedTrack(auto, manual, lang).Some? ==> exists t :: t in values && t.lang == lang
  {
    MergedIsExpected(auto, manual, "");
    forall t | t in values
      ensures ExpectedTrack(auto, manual, t.lang) == Some(t)
    {
      var i :| 0 <= i < |values| && values[i] == t;
      MergedIsExpected(auto, manual, t.lang);
    }
    forall lang | ExpectedTrack(auto, manual, lang).Some?
      ensures exists t :: t in values && t.lang == lang
    {
      MergedIsExpected(auto, manual, lang);
      var i :| 0 <= i < |st.order| && st.order[i] == lang;
      assert values[i] in values;
    }
  }

  datatype VideoInfo = VideoInfo(
    title: string,
    thumbnail: string,
    duration: Scalar,
    formats: seq<VideoFormat>,
    url: string,
    provider: string,
    subtitles: seq<SubtitleTrack>)

  const DefaultTitle: string := "Untitled"

  /** `mapInfoToVideoInfo`: total; defaults for absent fields, formats mapped
      one-to-one, `provider` echoed, and exactly one track per language that
      has a non-empty entry list, chosen manual-first, sorted by language. */
  method MapInfoToVideoInfo(raw: RawInfo, providerId: string) returns (info: VideoInfo)
    ensures info.title == raw.title.GetOr(DefaultTitle)
    ensures info.thumbnail == raw.thumbnail.GetOr("")
    ensures info.duration == Coalesce(raw.duration, Number(0))
    ensures info.url == raw.webpageUrl.GetOr("")
    ensures info.provider == providerId
    ensures info.formats == NormalizeFormats(raw.formats.GetOr([]))
    ensures SortedByLang(info.subtitles)
    ensures forall t :: t in info.subtitles ==> ExpectedTrack(raw.automaticCaptions, raw.subtitles, t.lang) == Some(t)
    ensures forall lang :: ExpectedTrack(raw.automaticCaptions, raw.subtitles, lang).Some? ==>
              exists t :: t in info.subtitles && t.lang == lang
  {
    var table := new SubtitleTable();
    table.Collect(raw.automaticCaptions, Auto);
    table.Collect(raw.subtitles, Manual);
    assert table.State() == Merged(raw.automaticCaptions, raw.subtitles);
    var values := table.Values();
    MergedValues(raw.automaticCaptions, raw.subtitles, table.State(), values);
    var subtitles := SortByLang(values);
    info := VideoInfo(
      title := raw.title.GetOr(DefaultTitle),
      thumbnail := raw.thumbnail.GetOr(""),
      duration := Coalesce(raw.duration, Number(0)),
      formats := NormalizeFormats(raw.formats.GetOr([])),
      url := raw.webpageUrl.GetOr(""),
      provider := providerId,
      subtitles := subtitles);
  }
}

=== FILE: youtube.dfy ===
/** How the extractor is launched: through the Python interpreter with a
    plugin directory for the hianime hosts, directly otherwise; and the fixed
    option set of a metadata fetch. The launch is modelled as a value. */
module YouTube {
  import opened Common
  import opened Extractor
  import Providers

  /** `isHianime`: the URL contains one of the four host substrings. */
  predicate IsHianime(url: string) {
    Contains(url, "hianime.to") || Contains(url, "hianimez.to") ||
    Contains(url, "hianime.is") || Contains(url, "hianime.nz")
  }

  /** The option that points the extractor at the provider plugins. */
  const PluginDirsFlag: string := "pluginDirs"

  /** A launch of the extractor: via `python -m yt_dlp`, or the bundled binary. */
  datatype Invocation =
    | ViaInterpreter(program: string, leadingArgs: seq<string>, url: string, flags: Flags)
    | Direct(url: string, flags: Flags)

  /** `runYtDlp` as the launch it performs: the hianime hosts go through the
      interpreter with `pluginDirs = <cwd>/yt_dlp_plugins` added to the flags
      and every other flag kept; any other URL is passed on unchanged. */
  function RunYtDlp(url: string, flags: Flags, cwd: string): (inv: Invocation)
    ensures inv.url == url
    ensures IsHianime(url) <==> inv.ViaInterpreter?
    ensures inv.ViaInterpreter? ==> inv.program == "python" && inv.leadingArgs == ["-m", "yt_dlp"]
    ensures inv.ViaInterpreter? ==> inv.flags.Keys == flags.Keys + {PluginDirsFlag}
    ensures inv.ViaInterpreter? ==> inv.flags[PluginDirsFlag] == FlagText(PathJoin(cwd, "yt_dlp_plugins"))
    ensures inv.ViaInterpreter? ==> forall k :: k in flags && k != PluginDirsFlag ==> inv.flags[k] == flags[k]
    ensures inv.Direct? ==> inv.flags == flags
  {
    if IsHianime(url) then
      ViaInterpreter("python", ["-m", "yt_dlp"], url, flags[PluginDirsFlag := FlagText(PathJoin(cwd, "yt_dlp_plugins"))])
    else
      Direct(url, flags)
  }

  /** The option set of a metadata fetch. */
  const InfoFlags: Flags := map[
    "dumpSingleJson" := FlagOn,
    "noWarnings" := FlagOn,
    "preferFreeFormats" := FlagOn,
    "noCheckCertificate" := FlagOn]

  /** A metadata fetch: the launch it makes and what it returns or rethrows. */
  datatype InfoRun = InfoRun(invocation: Invocation, result: Result<RawInfo, Thrown>)

  /** `getRawInfo`: launches with exactly the metadata options; a launch
      failure is rethrown as it is, and otherwise the outcome of parsing the
      output (`parsed`) is returned or rethrown as it is. */
  function GetRawInfo(url: string, cwd: string, run: Result<string, Thrown>, parsed: Result<RawInfo, Thrown>): (r: InfoRun)
    ensures r.invocation == RunYtDlp(url, InfoFlags, cwd)
    ensures r.invocation.flags.Keys - {PluginDirsFlag} ==
              {"dumpSingleJson", "noWarnings", "preferFreeFormats", "noCheckCertificate"}
    ensures forall k :: k in r.invocation.flags && k != PluginDirsFlag ==> r.invocation.flags[k] == FlagOn
    ensures run.Failure? ==> r.result == Failure(run.error)
    ensures run.Success? ==> r.result == parsed
  {
    InfoRun(RunYtDlp(url, InfoFlags, cwd), if run.Failure? then Failure(run.error) else parsed)
  }

  /** Every URL the launcher treats as hianime is classified as hianime by
      the provider resolver. */
  lemma IsHianimeImpliesProvider(url: string)
    requires IsHianime(url)
    ensures Providers.HianimePattern(url)
  {
    var host: string, tld: string, i: int;
    if Contains(url, "hianime.to") {
      host, tld := "hianime.to", "to";
    } else if Contains(url, "hianimez.to") {
      host, tld := "hianimez.to", "to";
    } else if Contains(url, "hianime.is") {
      host, tld := "hianime.is", "is";
    } else {
      host, tld := "hianime.nz", "nz";
    }
    i :| 0 <= i <= |url| - |host| && OccursAt(url, host, i);
    assert tld in Providers.HianimeTlds;
    assert host == "hianime." + tld || host == "hianimez." + tld;
    assert Providers.HianimeAt(url, i);
  }

  /** The converse fails: the resolver accepts `hianime.bz`, the launcher does not. */
  lemma ProviderDoesNotImplyIsHianime()
    ensures Providers.HianimePattern("hianime.bz") && !IsHianime("hianime.bz")
  {
    var url := "hianime.bz";
    assert OccursAt(url, "hianime." + "bz", 0);
    assert "bz" in Providers.HianimeTlds;
    assert Providers.HianimeAt(url, 0);
    var hosts := ["hianime.to", "hianimez.to", "hianime.is", "hianime.nz"];
    forall host | host in hosts
      ensures !Contains(url, host)
    {
      if |host| == 10 {
        assert host[8] != url[8];
        assert !OccursAt(url, host, 0);
      }
    }
    assert hosts[0] in hosts && hosts[1] in hosts && hosts[2] in hosts && hosts[3] in hosts;
  }
}
